=== FILE: README.md ===
# A verified model of the lab test harness

The repository is a small judge for programming-lab exercises. `test.py`
runs a student's executable on test cases and compares its output with a
verifier. The verifier is either an expected string, compared after
`str.strip()` on both sides, or a predicate over the raw output. Each case
gets one of four statuses: `SUCCESS`, `WRONG_ANSWER`, `TIME_LIMIT_EXCESS` or
`RUNTIME_ERROR`. The counts are kept per test set and across the whole run.

Test sets come in three kinds:

- the **default** set reads `*.in`/`*.out` files from the problem's test
  directory;
- the **random** set draws cases from the problem's `spec.py` generator;
- the **pseudo-label** set (match mode, `-m`) takes the cases of another set
  and relabels each one with the stripped output of a peer's executable.

Each problem directory has a `spec.py` that supplies `get_config()` (the
time limit) and, optionally, a `RandomTestSet`. The model covers four of
them:

- the stable-matching verifier of lab01 problem a;
- the sum generator of lab00 problem a;
- the divisible-by-six game of lab02 problem a;
- the "twice the shorter side" generator of lab02 problem b.

The Dafny model is purely functional:

- `harness.dfy`: statuses, verifiers, cases and the classification of one run.
- `testsets.dfy`: the three set iterators as a state datatype. `Next` is
  `__next__`, `Length` is `__len__`, and `Drain` exhausts a set the way a
  `for` loop does.
- `selection.dfy`: `get_testsets`, i.e. which sets the `-r`/`-R` options
  select and how they are built.
- `aggregate.dfy`: the status buckets of `post_testcase`, `post_testset`,
  `post_test` and `__unionDict`.
- `orchestrator.dfy`: `unit_test`, `match_test` and `perform`. It covers the
  per-set loop (also as a method with loop invariants), the sequencing of
  sets, and the three ways a run ends:
  - it completes;
  - it aborts on an exception or on `exit(1)`, namely:
    - a missing `.out` file;
    - the peer timing out in match mode;
    - a negative `__len__` handed to `len()`;
    - a missing `RandomTestSet`;
    - the `KeyError` that follows a case its predicate rejects;
    - the division by a zero total in `post_testset` or `post_test`;
  - it never ends: a random set with a negative count never stops, and the
    loop over it ends only at a case its predicate rejects, so it runs for
    ever when there is none.
- `stable_matching.dfy`, `lab00.dfy`, `lab02a.dfy`, `lab02b.dfy`: the four
  `spec.py` modules.
- `strings.dfy`, `results.dfy`: support code. This is Python's whitespace
  set, `str.strip`, `str.split`, whitespace tokenising, decimal rendering and
  `int()`, plus `Option`/`Result`.

The environment is passed in as parameters:

- the executable under test is a function from input to `Run`;
- the peer executable is a function from input to `RefRun`;
- the generator's random draws are a function from the case counter to a
  draw;
- the files of the test directory are a sequence of `InFile`.

## Model

| member | source | states |
|---|---|---|
| Harness.Classify | test.py:362-401 | A timed-out run is `TIME_LIMIT_EXCESS` with the configured timeout as its duration. A finished run is `WRONG_ANSWER` exactly when its stripped stdout differs from the stripped expected string, or the predicate rejects the raw stdout; otherwise it is `SUCCESS` with the measured duration. `RUNTIME_ERROR` is never produced. |
| Harness.TimeoutDominates | test.py:390-393 | On a timeout the verifier plays no part, and the duration recorded is the timeout. |
| Harness.ExitCodeIgnored | test.py:366-372 | The status does not depend on the exit code or on stderr, because `subprocess.run` is called without `check=True`. |
| Harness.RuntimeErrorUnreachable | test.py:394-401 | Every status is `SUCCESS`, `WRONG_ANSWER` or `TIME_LIMIT_EXCESS`; the `CalledProcessError` handler is dead code. |
| Harness.ExactIgnoresPadding | test.py:375-377 | Whitespace added before or after the output never changes the verdict of a string verifier. |
| Harness.PrintedLinePasses | test.py:375-377 | A program that prints the expected word followed by a newline passes, whatever its exit code and stderr. |
| Harness.ExactSevenExample | test.py:376 | The output `" 7\n"` matches the expected `"7"`. |
| Harness.PredicateSeesRawOutput | test.py:375-387 | A predicate verifier receives the unstripped output: `"7\n"` fails a predicate for `"7"` but passes the string `"7"`. |
| Strings.Strip | test.py:376 | The result is the part of the input between a maximal run of leading whitespace and a maximal run of trailing whitespace; a non-empty result starts and ends with a non-space character. |
| Strings.StripIsTheUniqueTrim | test.py:376 | Any cut of the input into all-space, core and all-space parts, with a core that starts and ends with non-space characters, is the cut `strip` makes. |
| Strings.StripIdempotent | test.py:274 | Stripping twice is stripping once, so the pseudo label's second strip at test.py:376 changes nothing. |
| Strings.StripIgnoresPadding | test.py:376 | Whitespace padding on either side does not change the stripped string. |
| Strings.StripNewline | test.py:376 | A word followed by a newline strips to the word. |
| Strings.ParseNat | lab01/test/a/spec.py:10 | A decimal string is accepted exactly when it is non-empty and all ASCII digits. |
| Strings.ParseInt | lab01/test/a/spec.py:10 | `int()` accepts exactly a non-empty digit string with an optional leading `+` or `-`. The sign of the result follows the sign written, and its magnitude is the value of the digits after the sign. |
| Strings.ParseIntToString | lab01/test/a/spec.py:10 | `int()` of `str(n)`, of `-` then `str(n)`, and of `+` then `str(n)` gives n, -n and n. |
| Strings.ParseNatToString | lab00/test/a/spec.py:14-16 | Parsing the decimal rendering of `n` gives `n` back. |
| Strings.NatToStringInjective | lab00/test/a/spec.py:14 | Different numbers render differently. |
| Strings.NatToStringIsWord | lab00/test/a/spec.py:15 | A rendered number is a single whitespace-free token, and contains no non-digit separator. |
| Strings.SplitJoin | lab02/test/a/spec.py:12-15 | Splitting a separator-joined sequence of separator-free parts gives the parts back. |
| Strings.TokensUnwords | lab01/test/a/spec.py:9-37 | Tokenising a space-joined sequence of whitespace-free words gives the words back. |
| TestSets.NewDefault | test.py:192-197 | A new default set is named `"Default"`, its length is the number of `*.in` files, and it has yielded nothing yet. |
| TestSets.NewRandom | test.py:217-221 | A new random set is named `"Random"`, its length is the case count, and it stops exactly when the count is non-negative. |
| TestSets.NewPseudo | test.py:239-247 | Wrapping fails with the `len()` error exactly when the source's `__len__` is negative. Otherwise the wrapper keeps the source's name and length. |
| TestSets.Next | test.py:199-276 | Each step keeps the pointer or counter within its bound. A yield keeps the name and length and uses up one case. A set with nothing left stops, and a default or random set stops only then. A random set never raises, and a pseudo set's cases always carry a string verifier. |
| TestSets.Drain | test.py:360 | A set never yields more cases than its counter admits. An error-free default or random set yields exactly that many, and a random set never raises. |
| TestSets.Length | test.py:210-250 | `__len__` is never below the number of cases still to come, and is negative only for a random set with a negative count, which never stops. |
| TestSets.CasesWithinLength | test.py:210-250 | A set yields at most `len()` cases. |
| TestSets.PseudoCasesExact | test.py:274 | Every case a pseudo-label set yields has a string verifier. |
| TestSets.RandomNegativeNeverStops | test.py:226-230 | With a negative count, `cnt == num` never holds, so the set keeps generating. |
| TestSets.DrainRandom | test.py:226-230 | A random set yields `num - cnt` cases: the generator's results for counters `cnt+1` to `num`, in order. |
| TestSets.RandomNames | test.py:226-230 | The i-th drawn case is named after counter value i+1, the value `generate` sees. |
| TestSets.FirstMissing | test.py:204-207 | Finds the first file with no `.out` partner: every earlier file has one. |
| TestSets.DrainDefault | test.py:199-208 | The default set yields the files in listing order up to the first one with no `.out` partner, and then fails naming that file; with no missing partner it stops after all of them. |
| TestSets.DefaultYieldsLength | test.py:196-211 | When every `.in` has its `.out`, the default set yields exactly `__len__` cases. |
| TestSets.Relabel | test.py:255-276 | Relabelling keeps a prefix of the cases and gives each one the stripped peer output as its expected string. It stops with the timeout error at the first case on which the peer times out. |
| TestSets.DrainPseudoTimeout | test.py:261-273 | A peer timeout on the next case ends the run with that case's name, and no case is yielded. |
| TestSets.DrainPseudo | test.py:252-276 | A pseudo set over a source that yields its full length of cases is the relabelling of those cases. |
| TestSets.DrainPseudoSourceFails | test.py:255 | An exception raised by the source's `__next__` propagates through the wrapper. |
| TestSets.DrainPseudoPropagates | test.py:252-276 | A source that fails part-way yields its relabelled prefix, then either the peer's timeout error or the source's own error, whichever comes first. |
| TestSets.PseudoKeepsNamesAndInputs | test.py:239-276 | Match mode keeps every case's name and input and replaces only the verifier, with the peer's stripped output; it stops early only on a peer timeout. |
| TestSets.PeerLabelComparesStripped | test.py:274 | Against a pseudo label, a run is `WRONG_ANSWER` exactly when its stripped output differs from the peer's stripped output. |
| TestSets.PeerLabelExample | test.py:274 | A peer printing `"7\n"` gives the label `"7"`. |
| Selection.Choose | test.py:322-331 | With neither `-r` nor `-R` set (or set to 0), only the default set is used, with 5 as the unused case count. A non-zero `-R` selects default plus random with its count. Otherwise a non-zero `-r` selects random alone with its count. |
| Selection.ChoiceShape | test.py:321-337 | One or two sets, default always before random; default is used exactly when `-R` is given or `-r` is not, and random exactly when either is given. |
| Selection.BigRandomWins | test.py:324-328 | When both options are given, `-r` is ignored. |
| Selection.BuildSets | test.py:332-337 | Building fails exactly when a random set is wanted and the spec module has no `RandomTestSet`. Otherwise the sets are the selected kinds, freshly built, in order. |
| Aggregate.Add | test.py:92 | `d[k] += items` appends to bucket `k` and leaves every other bucket unchanged. |
| Aggregate.Union | test.py:62-65 | `__unionDict` appends each bucket of the second dict to the first's bucket for the same status. |
| Aggregate.UnionCounts | test.py:62-65 | After a union, every count, the success count and the total are the sums of the two sides. |
| Aggregate.Collect | test.py:92-110 | Filling a set's buckets case by case leaves `success_num` at most `tot_num`, and `tot_num` equal to the number of items appended over the set. |
| Aggregate.IntendedCounts | test.py:104-110 | If each case name were appended as one item, each status count would be the number of cases with that status, and the total the number of cases. |
| Aggregate.AsWrittenCounts | test.py:92 | As written, `+= self.casename` appends the name's characters, so `tot_num` is the total length of the case names. |
| Aggregate.AsWrittenMiscounts | test.py:92 | Cases `"a"` passing and `"rand1"` failing give 1 success out of 6 as written, against 1 out of 2 when counting cases. |
| Aggregate.AsWrittenLosesEmptyName | test.py:92 | A case with an empty name adds nothing to the count as written. |
| Aggregate.Merge | test.py:111-122 | The run-wide buckets are the union of the per-set ones, and their total is the sum of the per-set totals. |
| Aggregate.NameCharsPositive | test.py:92 | As written, a set's total is non-zero exactly when some case has a non-empty name. |
| Aggregate.MergeKeepsSetOrder | test.py:111 | Merging one more set appends its buckets after those of the earlier sets. |
| Aggregate.DefaultBeforeRandom | test.py:111 | With default and random sets, each run-wide bucket lists the default set's items before the random set's. |
| Aggregate.Percent | test.py:113-122 | The percentage printed by `post_testset` and `post_test` raises `ZeroDivisionError`, naming the set or the run, exactly when the total is 0. Otherwise it lies between 0 and 100, and is 100 when every item passed. |
| Orchestrator.JudgeAll | test.py:360-401 | Each case yielded is judged once, in order, by running it and classifying the run against its verifier. |
| Orchestrator.RejectedIsPredicateWrongAnswer | test.py:386-389 | A case raises the `KeyError` exactly when its verifier is a predicate and it is judged `WRONG_ANSWER`. |
| Orchestrator.FirstRejected | test.py:386-389 | Finds the first case whose predicate rejects the output: no earlier case is rejected. |
| Orchestrator.FirstRejectedIsFirst | test.py:386-389 | A rejected case with no rejected case before it is the one the set stops at. |
| Orchestrator.JudgedNames | test.py:92 | The judged records of a set have a non-zero character total exactly when some case has a non-empty name. |
| Orchestrator.RunSet | test.py:358-402 | The per-set loop judges the cases the set yields, in order. It stops right after the first case its predicate rejects, with the `KeyError` naming that case. With no such case it judges them all and ends with the set's own error, if any. |
| Orchestrator.PlayFinite | test.py:358-402 | A set that stops is played like `RunSet`: its cases are judged in order, at most all of them, and the buckets are those `post_testcase` fills from the judged records, one item per character of the judged names. A set that ends without error has judged every case, and no predicate rejected any. |
| Orchestrator.DrawsUntilRejected | test.py:226-230 | Given a counter to come whose case is rejected, the cases a random set generates after counter `cnt` are listed in order up to the first rejected one, which is the last listed. |
| Orchestrator.PlayDraws | test.py:358-402 | A set that never stops but generates a rejected case is judged case by case up to the first case its predicate rejects, and ends with the `KeyError` naming that case. |
| Orchestrator.PlayUnbounded | test.py:360-389 | A random set with a negative count runs for ever exactly when no case it would still generate is rejected by its predicate. Otherwise it ends, as `PlayDraws` states, at the first rejected one. |
| Orchestrator.Play | test.py:358-402 | One set played. Its loop never ends exactly when the set never stops and no predicate of its rejects a case it generates. Otherwise its cases are judged in order up to the first one rejected, whose `KeyError` ends the set, and the buckets are those `post_testcase` fills from the judged records, one item per character of the judged names. A set that ends without error has stopped, judged every case, and no predicate rejected any. |
| Orchestrator.PlayStopsAtRejection | test.py:84-96 | At the first case a predicate rejects, `post_testcase` records it as `WRONG_ANSWER` and then raises `KeyError` naming it; the cases after it are not run. |
| Orchestrator.PlayPasses | test.py:358-402 | A played set lets the run go on exactly when it stops, raises nothing, has no case its predicate rejects, and has a case with a non-empty name. |
| Orchestrator.PlayAll | test.py:358-402 | Every set is played in order, one result per set. A result hangs exactly for a set whose loop never ends (it never stops and no case it generates is rejected), and otherwise carries the set's name. |
| Orchestrator.PlayAllPasses | test.py:358-402 | Each played set lets the run go on exactly when its set passes in the terms of `PlayPasses`. |
| Orchestrator.RunSets | test.py:358-403 | The run reports at most one result per set, after those already done. |
| Orchestrator.RunReportsPrefix | test.py:358-403 | The reports are those of the leading sets that ended without error, the `KeyError` included, and with a non-zero total, in order. The set after them, if any, did not. |
| Orchestrator.RunCompletes | test.py:355-403 | A run completes exactly when every played set ends without error, the `KeyError` included, and has a non-zero total, and there is at least one set. |
| Orchestrator.RunCompletedMerges | test.py:111 | A completed run has one report per set, and its run-wide buckets are the merge of the per-set buckets. |
| Orchestrator.RunStopsAt | test.py:355-403 | A run hangs exactly when the first played set that does not pass is one whose loop never ends. Otherwise it aborts at the first set that raised, with that error (the `KeyError` included), or with `ZeroDivisionError` when that set's total is 0. An empty run aborts in `post_test`. |
| Orchestrator.RunShape | test.py:355-403 | Over at least one set: the run completes exactly when all played sets pass, its reports are those of the first sets in order, and a completed run merges them. |
| Orchestrator.UnitTest | test.py:355-403 | `unit_test` completes exactly when there is a set and every set stops, raises nothing, has no case its predicate rejects and has a non-empty case name. The reports are those of the first sets, each of which passed, and a completed run merges them in set order. A run that does not complete hangs exactly when it has reached a set whose loop never ends: a random set with a negative count none of whose cases is rejected by its predicate. Otherwise it aborts there, with the cases judged and the set's error or the division by its zero total. A run over no set divides by zero at the end. |
| Orchestrator.MatchModeNeverRejects | test.py:274 | A pseudo-label set's cases all carry string verifiers, so the `KeyError` never happens in match mode. Such a set is judged to the end and ends with its own error. |
| Orchestrator.PredicateRejectionAborts | test.py:386-389 | A one-case random set whose predicate rejects the output aborts the run with `KeyError`. That case has been judged, and nothing is reported. |
| Orchestrator.NegativeCountRejectionAborts | test.py:355-403 | A random set with a negative count whose first case is rejected by its predicate aborts the run with `KeyError` after judging that one case, although the set itself never stops. |
| Orchestrator.NegativeCountHangs | test.py:355-403 | A random set with a negative count none of whose cases is rejected keeps the run going for ever, with nothing reported. |
| Orchestrator.WrapAll | test.py:347-353 | Match mode wraps every set in order, and fails with the `len()` error exactly when some set has a negative length. |
| Orchestrator.Prepare | test.py:321-353 | The sets handed to `unit_test` are one or two valid sets, all pseudo-label sets in match mode. Outside match mode they are the sets `get_testsets` builds for the chosen options, and the only possible error is a missing `RandomTestSet`. In match mode they are those sets wrapped over the peer, and the only other error is the `len()` error. |
| Orchestrator.Perform | test.py:416-422 | An error while building the sets aborts before any case runs. Otherwise the sets built are run by `unit_test` with the problem's time limit, and the run completes exactly when the sets were built and every one of them passes. |
| StableMatching.TimeoutIsOneSecond | lab01/test/a/spec.py:4-5 | A timed-out case of this problem is reported with a duration of one second. |
| StableMatching.ReadCount | lab01/test/a/spec.py:10 | `N` is the first token as an integer. End of input and a non-integer token are distinct errors. |
| StableMatching.ParseInstance | lab01/test/a/spec.py:10-28 | The input is read successfully exactly when `N` parses and at least 1+2N+2N² tokens are present (taking N as 0 when it is not positive). The instance read has N boys, N girls and N lists of N names each. |
| StableMatching.ParseRenderedInstance | lab01/test/a/spec.py:10-28 | Reading back the tokens of a well-shaped instance gives that instance. |
| StableMatching.LastWins | lab01/test/a/spec.py:19-28 | A dict filled in order has exactly the keys assigned. An entry whose key does not occur again keeps its value. |
| StableMatching.LaterPairWins | lab01/test/a/spec.py:33-37 | When a boy appears in two pairs, the later pair's girl is recorded. |
| StableMatching.ParsePairs | lab01/test/a/spec.py:30-37 | N pairs are read exactly when at least 2N tokens are present; otherwise reading ends at end of input. The i-th pair is tokens 2i and 2i+1, boy first, and any tokens after them are ignored. |
| StableMatching.ParseRenderedPairs | lab01/test/a/spec.py:30-37 | Reading back the tokens of N pairs gives the pairs. |
| StableMatching.PairsRecordedBothWays | lab01/test/a/spec.py:31-37 | When no name occurs in two pairs, `bg` and `gb` record every pair and are inverse to each other. |
| StableMatching.IndexOf | lab01/test/a/spec.py:41 | `list.index` finds the first occurrence, or raises `ValueError` exactly when the name is absent. |
| StableMatching.Lookup | lab01/test/a/spec.py:41 | `bg[boy]` succeeds exactly when the key is present, and raises `KeyError` otherwise. |
| StableMatching.NotAboveItself | lab01/test/a/spec.py:41 | Nobody ranks a name above itself. |
| StableMatching.OwnPartnerNeverBlocks | lab01/test/a/spec.py:39-44 | A boy and his assigned girl never form a blocking pair. |
| StableMatching.FirstIndexPrefers | lab01/test/a/spec.py:41-43 | Comparing first indices agrees with the independent "ranked strictly higher" definition. |
| StableMatching.PairBlocksMeansBlocking | lab01/test/a/spec.py:41-43 | The source's condition, evaluated left to right with short-circuit `and`, returns true exactly for a blocking pair, and false only for a non-blocking one. |
| StableMatching.CompletePairChecks | lab01/test/a/spec.py:41-43 | When every name looked up is present, the condition raises nothing. |
| StableMatching.ScanGirls | lab01/test/a/spec.py:40-44 | The inner loop returns true only when some girl blocks with the boy, and false only when none does; with every lookup defined it raises nothing. |
| StableMatching.ScanBoys | lab01/test/a/spec.py:39-46 | The double loop finds a blocking pair if one exists, reports none only when there is none, and raises nothing when every lookup is defined. |
| StableMatching.AllNamesKnown | lab01/test/a/spec.py:19-28 | Every boy and girl read has a preference list in the dicts. |
| StableMatching.Scan | lab01/test/a/spec.py:39-46 | When the blocking-pair scan finishes, it reports a blocking pair exactly when the matching is not stable. It finishes whenever every lookup is defined. |
| StableMatching.Verify | lab01/test/a/spec.py:8-46 | An input that is not an instance raises what reading it raises. An output too short for N pairs raises at end of input. Once both are read, the verifier returns True exactly for a stable matching. |
| StableMatching.VerifyTokens | lab01/test/a/spec.py:8-46 | Errors reading the input propagate unchanged; an output too short for N pairs raises at end of input. |
| StableMatching.VerifyParsed | lab01/test/a/spec.py:8-46 | Once input and output are read, the verifier returns True exactly for a stable matching and False exactly for an unstable one. It raises nothing when every lookup is defined. |
| StableMatching.VerifyRendered | lab01/test/a/spec.py:8-46 | For the text of a well-shaped instance and of N pairs, the verifier accepts exactly the stable matchings. |
| StableMatching.NonPositiveCountAcceptsAnything | lab01/test/a/spec.py:15-46 | With `N <= 0` every `range(N)` loop is empty, and the verifier returns True for any output. |
| Lab00.Generate | lab00/test/a/spec.py:11-17 | The case is named `"rand"` followed by the counter. Its input is the two numbers separated by one space, and its expected output is their sum, at most 510. Each reads back as drawn. |
| Lab00.InputReadsBack | lab00/test/a/spec.py:15 | The input `"a b"` splits, by one space or by whitespace, into the two numbers, each of which reads back as drawn. |
| Lab00.NameReadsBack | lab00/test/a/spec.py:14 | The name starts with `"rand"`, and the rest reads back as the counter. |
| Lab00.PrintedSumPasses | lab00/test/a/spec.py:16 | Printing the sum on a line passes, whatever the exit code and stderr. |
| Lab00.GeneratorNames | lab00/test/a/spec.py:14 | The case generated at counter c is named `"rand"` followed by c. |
| Lab00.CaseNameInjective | lab00/test/a/spec.py:14 | Different counters give different case names. |
| Lab00.NamesAreDistinct | lab00/test/a/spec.py:14 | A random set of this problem yields its count of cases, named `rand1` to `randN` in order and pairwise distinct. |
| Lab02a.Generate | lab02/test/a/spec.py:8-21 | The case is named `"rand"`. Its input lines are t and then each number, and its expected output splits into one verdict per number, followed by the empty remainder after the last newline. |
| Lab02a.VerdictIsBobIffMultipleOfSix | lab02/test/a/spec.py:16-19 | The line for a number is `Bob` exactly when it is divisible by 6, and `Alice` otherwise. |
| Lab02a.InputLines | lab02/test/a/spec.py:11-15 | The input has t+1 lines: t first, then the t numbers in order. |
| Lab02a.ExpectedLines | lab02/test/a/spec.py:16-19 | The expected text splits into one verdict line per number followed by an empty remainder. |
| Lab02a.ExpectedShape | lab02/test/a/spec.py:13-19 | Line i of the expected text is `Bob` exactly when the i-th number is divisible by 6, and `Alice` exactly when it is not; the text ends with a newline. |
| Lab02a.FinalNewlineOptional | lab02/test/a/spec.py:17-19 | A program printing the verdicts without the final newline still passes. |
| Lab02a.NamesRepeat | lab02/test/a/spec.py:21 | Every case of the random set is named `rand`. |
| Lab02b.Generate | lab02/test/b/spec.py:8-17 | The case is named `"rand"`, and its expected output spells the answer: 1 for n = 1, `2 * min(k, n + 1 - k)` otherwise. It reads back as that number. |
| Lab02b.AnswerShape | lab02/test/b/spec.py:14-16 | The answer is 1 when n is 1. Otherwise it is an even number between 2 and n+1, the same for k and for its mirror n+1-k. |
| Lab02b.SpecialCaseNeeded | lab02/test/b/spec.py:14-16 | For every draw with n > 1 the formula alone gives the expected output. For n = 1 it does not: it gives 2, not the expected 1. |
| Lab02b.InputReadsBack | lab02/test/b/spec.py:11-13 | The input is n and k separated by one space. |
| Lab02b.PrintedAnswerPasses | lab02/test/b/spec.py:14-16 | Printing the answer on a line passes. |
| Lab02b.NamesRepeat | lab02/test/b/spec.py:17 | Every case of the random set is named `rand`. |

## Left out

- Running processes (`subprocess.run`, pipes, wall-clock timing): the executable under test and the peer are parameters, and a run's elapsed time is an input.
- Printing, colours and the progress text of the theme (`pre_test`, `pre_testcase`, the `WA`/`Passed` lines, the summary line): only the numbers they print are modelled (`Aggregate.Percent`).
- The warning printed by the pseudo-label set for a non-string verifier: it does not change the case.
- The peer's 7-second limit: the peer is an oracle that either answers or times out.
- `import_spec`, `get_exec_path`, `argparse`, `sys.exit` for a missing directory or executable, and the interactive `yes_or_no` prompt: these are file-system and user interaction.
- The directory glob and `read_text`: the listing of `*.in` files is a sequence in whatever order the file system gives, and a missing `.out` is an `InFile` without output.
- Python's `random`: a generator's draws are a function of the case counter, restricted to the ranges `randint` can return.
- Floating point: durations, timeouts and percentages are `real`.
- Strings.ParseInt: accepts only ASCII digits after an optional sign, not the non-ASCII digits, surrounding whitespace or digit-separating underscores that Python's `int()` also accepts. Tokens never carry whitespace, so only the digit and underscore cases differ.
- `StrReader`, which lab01's verifier imports from `test`, is not part of this model. The model assumes it returns whitespace-separated tokens and signals end of input with an error.
- The status dictionaries are keyed by `Status` rather than by `status.value`; the two are in one-to-one correspondence.
- A random set with a negative count is not an infinite sequence of cases in the model. Its loop ends at the first case its predicate rejects (`Orchestrator.PlayUnbounded`), and otherwise the run is one that never ends (`Endless`). Which of the two happens is decided over all the counters to come, so `Play`, `PlayAll`, `UnitTest` and `Perform` are ghost definitions rather than executable ones.
- Harness.Verifier: a predicate verifier is a total function from output to verdict. An exception raised inside a predicate at test.py:386 is not modelled. lab01's two-argument verifier, which would raise `TypeError` there, is one example.

## Behaviour of the code as written

- `post_testcase` appends the case *name* to a list with `+=`, which extends the list by the name's characters. The totals printed are therefore sums of name lengths, not case counts (`Aggregate.AsWrittenCounts`, `Aggregate.AsWrittenMiscounts`). The model keeps this behaviour in the run; `Aggregate.IntendedCounts` states what per-case counting would give.
- `RUNTIME_ERROR` is never produced: without `check=True`, `subprocess.run` does not raise `CalledProcessError`, and a crashing program is judged on its output (`Harness.RuntimeErrorUnreachable`).
- A set whose total is 0 makes `post_testset` divide by zero and ends the run (`Orchestrator.RunStopsAt`). This happens when the set is empty, or when every name is empty, as a consequence of the point above.
- A case whose predicate verifier rejects the output ends the whole run. `unit_test` then calls `post_testcase(status, duration)` without `result` (test.py:386-389). `post_testcase` first adds the case to its bucket and then reads `kwargs['result']` for the `WA` message, which raises `KeyError` (test.py:92-96). Nothing catches it, so the later cases, `post_testset` and `post_test` never run (`Orchestrator.PlayStopsAtRejection`, `Orchestrator.PredicateRejectionAborts`). In match mode every verifier is a string, so this cannot happen (`Orchestrator.MatchModeNeverRejects`).
- A missing `.out` file is noticed only when that case is reached, after the earlier cases have run (`TestSets.DrainDefault`).
- The pseudo-label set keeps the peer's output stripped, so a string verifier compares against it once more stripped (`Strings.StripIdempotent`).
- lab01's verifier cannot be reached through the harness in this repository, for three reasons:
  - `test.py` defines no `StrReader`, so the import fails;
  - lab01 defines no `RandomTestSet`;
  - `unit_test` calls a predicate verifier with one argument (test.py:386), while this one takes two (input and output).

  The model states the verifier's behaviour on its own, as `StableMatching.Verify`.

=== FILE: aggregate.dfy ===
/**
 * The counting done by `DefaultTheme._TestInfo`: a `defaultdict(list)` of
 * case names per status for each test set (`post_testcase`), the success and
 * total counts of `post_testset` and `post_test`, and `__unionDict`, which
 * merges a set's buckets into the run-wide ones.
 *
 * `post_testcase` does `status_dict[status.value] += self.casename`, and
 * `list += str` extends the list with the name's characters, not with the
 * name. The buckets are therefore generic in what one case contributes:
 * `AsWritten` (its characters, what the code does) or `Intended` (the name
 * itself).
 */
module Aggregate {
  import opened Results
  import opened Harness

  /** A `defaultdict(list)` keyed by status; a key is present once it has been touched. */
  type Buckets<T> = map<Status, seq<T>>

  /** One judged case as the theme records it. */
  datatype CaseRecord = CaseRecord(name: string, outcome: Outcome)

  /** `d[k]` on a `defaultdict(list)`. */
  function Get<T>(d: Buckets<T>, k: Status): seq<T> {
    if k in d then d[k] else []
  }

  /** What `+= casename` appends: the name's characters. */
  function AsWritten(name: string): seq<char> {
    name
  }

  /** What was evidently meant: the name as one item. */
  function Intended(name: string): seq<string> {
    [name]
  }

  /** `d[k] += items`. */
  function Add<T>(d: Buckets<T>, k: Status, items: seq<T>): (r: Buckets<T>)
    ensures r.Keys == d.Keys + {k}
    ensures r[k] == Get(d, k) + items
    ensures forall j :: j in d && j != k ==> r[j] == d[j]
  {
    d[k := Get(d, k) + items]
  }

  /** `__unionDict(a, b)`: `a[k] += b[k]` for every key `k` of `b`. */
  function Union<T>(a: Buckets<T>, b: Buckets<T>): (r: Buckets<T>)
    ensures r.Keys == a.Keys + b.Keys
    ensures forall k :: k in b ==> r[k] == Get(a, k) + b[k]
    ensures forall k :: k in a && k !in b ==> r[k] == a[k]
  {
    map k | k in a.Keys + b.Keys :: Get(a, k) + Get(b, k)
  }

  /** `len(d[k])` for a key the loop visits, zero for an absent one. */
  function Count<T>(d: Buckets<T>, k: Status): nat {
    |Get(d, k)|
  }

  /** `success_num` of `post_testset` / `post_test`. */
  function Successes<T>(d: Buckets<T>): nat {
    Count(d, Success)
  }

  /** `tot_num`: the sizes of all buckets added up. */
  function Total<T>(d: Buckets<T>): nat {
    Count(d, Success) + Count(d, WrongAnswer) + Count(d, TimeLimitExcess) + Count(d, RuntimeError)
  }

  /**
   * The buckets `post_testcase` builds for one test set, case by case:
   * `success_num <= tot_num`, and `tot_num` counts every contribution once.
   */
  function Collect<T>(records: seq<CaseRecord>, items: string -> seq<T>): (d: Buckets<T>)
    ensures Successes(d) <= Total(d)
    ensures Total(d) == ItemCount(records, items)
  {
    if |records| == 0 then map[]
    else
      var last := records[|records| - 1];
      var before := Collect(records[..|records| - 1], items);
      TotalAdd(before, last.outcome.status, items(last.name));
      Add(before, last.outcome.status, items(last.name))
  }

  /** What the cases with status `k` contribute, in case order. */
  function Gather<T>(records: seq<CaseRecord>, k: Status, items: string -> seq<T>): seq<T>
  {
    if |records| == 0 then []
    else
      var last := records[|records| - 1];
      Gather(records[..|records| - 1], k, items) + (if last.outcome.status == k then items(last.name) else [])
  }

  /** How many of the records have status `k`. */
  function StatusCount(records: seq<CaseRecord>, k: Status): nat
  {
    if |records| == 0 then 0
    else StatusCount(records[..|records| - 1], k) + (if records[|records| - 1].outcome.status == k then 1 else 0)
  }

  /** The number of characters over all the case names. */
  function NameChars(records: seq<CaseRecord>): nat
  {
    if |records| == 0 then 0 else NameChars(records[..|records| - 1]) + |records[|records| - 1].name|
  }

  /** The sum, over the records, of what each one contributes. */
  function ItemCount<T>(records: seq<CaseRecord>, items: string -> seq<T>): nat
  {
    if |records| == 0 then 0
    else ItemCount(records[..|records| - 1], items) + |items(records[|records| - 1].name)|
  }

  /** Each bucket holds the contributions of the cases with that status, in case order. */
  lemma {:induction false} CollectGathers<T>(records: seq<CaseRecord>, items: string -> seq<T>, k: Status)
    ensures Get(Collect(records, items), k) == Gather(records, k, items)
  {
    if |records| > 0 {
      CollectGathers(records[..|records| - 1], items, k);
    }
  }

  lemma TotalAdd<T>(d: Buckets<T>, k: Status, items: seq<T>)
    ensures Total(Add(d, k, items)) == Total(d) + |items|
    ensures Successes(Add(d, k, items)) == Successes(d) + (if k == Success then |items| else 0)
  {
  }

  /** With the names as items, the buckets list the case names by status. */
  lemma {:induction false} IntendedCounts(records: seq<CaseRecord>)
    ensures forall k :: |Get(Collect(records, Intended), k)| == StatusCount(records, k)
    ensures Successes(Collect(records, Intended)) == StatusCount(records, Success)
    ensures Total(Collect(records, Intended)) == |records|
  {
    if |records| > 0 {
      IntendedCounts(records[..|records| - 1]);
    }
  }

  /** As written, every count is a number of characters of case names. */
  lemma {:induction false} AsWrittenCounts(records: seq<CaseRecord>)
    ensures Total(Collect(records, AsWritten)) == NameChars(records)
  {
    if |records| > 0 {
      var last := records[|records| - 1];
      AsWrittenCounts(records[..|records| - 1]);
      TotalAdd(Collect(records[..|records| - 1], AsWritten), last.outcome.status, AsWritten(last.name));
    }
  }

  /** A set's total as written is positive exactly when some case has a non-empty name. */
  lemma {:induction false} NameCharsPositive(records: seq<CaseRecord>)
    ensures NameChars(records) > 0 <==> exists i :: 0 <= i < |records| && records[i].name != []
  {
    if |records| > 0 {
      var n := |records| - 1;
      NameCharsPositive(records[..n]);
      if NameChars(records[..n]) > 0 {
        var i :| 0 <= i < n && records[..n][i].name != [];
        assert records[i] == records[..n][i];
      }
      if exists i :: 0 <= i < |records| && records[i].name != [] {
        var i :| 0 <= i < |records| && records[i].name != [];
        if i < n {
          assert records[..n][i] == records[i];
        }
      }
    }
  }

  /**
   * Counting characters instead of cases: a passed case named `"a"` and a
   * failed one named `"rand1"` are reported as 1 passed out of 6, not 1 out
   * of 2.
   */
  lemma AsWrittenMiscounts()
    ensures var rs := [CaseRecord("a", Outcome(Success, 0.0)), CaseRecord("rand1", Outcome(WrongAnswer, 0.0))];
            && Successes(Collect(rs, AsWritten)) == 1 && Total(Collect(rs, AsWritten)) == 6
            && Successes(Collect(rs, Intended)) == 1 && Total(Collect(rs, Intended)) == 2
  {
    var rs := [CaseRecord("a", Outcome(Success, 0.0)), CaseRecord("rand1", Outcome(WrongAnswer, 0.0))];
    assert rs[..1] == [rs[0]];
    assert rs[..1][..0] == [];
  }

  /** A set whose only case has an empty name has total 0 as written, and 1 as intended. */
  lemma AsWrittenLosesEmptyName(status: Status, duration: real)
    ensures var rs := [CaseRecord("", Outcome(status, duration))];
            Total(Collect(rs, AsWritten)) == 0 && Total(Collect(rs, Intended)) == 1
  {
    var rs := [CaseRecord("", Outcome(status, duration))];
    assert rs[..0] == [];
  }

  /** `__unionDict` adds counts bucket by bucket. */
  lemma UnionCounts<T>(a: Buckets<T>, b: Buckets<T>)
    ensures forall k :: Count(Union(a, b), k) == Count(a, k) + Count(b, k)
    ensures Successes(Union(a, b)) == Successes(a) + Successes(b)
    ensures Total(Union(a, b)) == Total(a) + Total(b)
  {
  }

  /**
   * The run-wide buckets: every set's buckets merged into an initially empty
   * dict, in set order. The run-wide total is the sum of the per-set totals.
   */
  function Merge<T>(sets: seq<Buckets<T>>): (d: Buckets<T>)
    ensures Total(d) == TotalOf(sets)
  {
    if |sets| == 0 then map[]
    else
      var before := Merge(sets[..|sets| - 1]);
      UnionCounts(before, sets[|sets| - 1]);
      Union(before, sets[|sets| - 1])
  }

  /** The sum of the per-set totals. */
  function TotalOf<T>(sets: seq<Buckets<T>>): nat
  {
    if |sets| == 0 then 0 else TotalOf(sets[..|sets| - 1]) + Total(sets[|sets| - 1])
  }

  /** In the run-wide buckets, a set's entries come after those of every set before it. */
  lemma MergeKeepsSetOrder<T>(sets: seq<Buckets<T>>, last: Buckets<T>, k: Status)
    ensures Get(Merge(sets + [last]), k) == Get(Merge(sets), k) + Get(last, k)
  {
    assert (sets + [last])[..|sets|] == sets;
  }

  /** With a default set followed by a random one, the default set's entries come first in every bucket. */
  lemma DefaultBeforeRandom<T>(defaults: Buckets<T>, randoms: Buckets<T>, k: Status)
    ensures Get(Merge([defaults, randoms]), k) == Get(defaults, k) + Get(randoms, k)
  {
    assert [defaults] + [randoms] == [defaults, randoms];
    MergeKeepsSetOrder([defaults], randoms, k);
    assert Get(Merge([defaults]), k) == Get(defaults, k) by {
      assert [defaults][..0] == [];
      assert Merge([defaults]) == Union(map[], defaults);
      if k in defaults {
        assert Get(Union(map[], defaults), k) == [] + defaults[k];
      }
    }
  }

  /** The pass percentage `post_testset` prints; a zero total raises `ZeroDivisionError`. */
  function Percent(success: nat, total: nat, setName: string): (r: Result<real, Fatal>)
    ensures r.Err? <==> total == 0
    ensures r.Err? ==> r.error == ZeroDivision(setName)
    ensures r.Ok? && success <= total ==> 0.0 <= r.value <= 100.0
    ensures r.Ok? && success == total ==> r.value == 100.0
  {
    if total == 0 then Err(ZeroDivision(setName))
    else Ok((success as real) * 100.0 / (total as real))
  }
}

=== FILE: harness.dfy ===
/**
 * The vocabulary of the grading harness: the four statuses, the two kinds of
 * verifier, a test case, the result of running the executable once, and the
 * classification that `Test.unit_test` applies to every run.
 */
module Harness {
  import opened Strings

  /** `Status` (test.py): a closed enumeration with four members. */
  datatype Status = Success | WrongAnswer | TimeLimitExcess | RuntimeError

  /**
   * A case's verifier: either the expected output as a string, or a callable
   * that judges the raw standard output.
   */
  datatype Verifier = Exact(expected: string) | Pred(check: string -> bool)

  /** The `(casename, unit_case, verifier)` triple a test set yields. */
  datatype TestCase = TestCase(name: string, input: string, verifier: Verifier)

  /**
   * One `subprocess.run` of the executable under test: either it finished
   * (with whatever exit code) or the timeout expired first.
   */
  datatype Run =
    | Finished(stdout: string, stderr: string, exitCode: int, elapsed: real)
    | TimedOut

  /** The status of one case and the duration reported for it. */
  datatype Outcome = Outcome(status: Status, duration: real)

  /**
   * The errors that end a whole run instead of being recorded for one case:
   * a `.out` file that cannot be read, a reference run that times out, a
   * `__len__` below zero handed to `len()`, a problem specification without a
   * `RandomTestSet` class, the division by a zero total when a summary
   * percentage is printed, and the `KeyError` of `post_testcase` reading the
   * `result` keyword that the predicate branch of `unit_test` does not pass.
   */
  datatype Fatal =
    | MissingOutput(stem: string)
    | ReferenceTimeout(caseName: string)
    | NegativeLength
    | NoRandomTestSet
    | ZeroDivision(setName: string)
    | MissingResult(caseName: string)

  /** The object `get_config()` returns; only `"timeout"` is read. */
  datatype Config = Config(timeout: real)

  /**
   * Whether the output is accepted: an exact verifier compares both sides
   * stripped, a predicate sees the output exactly as printed.
   */
  predicate Accepts(v: Verifier, stdout: string) {
    match v
    case Exact(expected) => Strip(stdout) == Strip(expected)
    case Pred(check) => check(stdout)
  }

  /**
   * The status branch of `Test.unit_test`. A timeout is caught before the
   * verifier is looked at; `subprocess.run` is called without `check=True`,
   * so a non-zero exit code is never turned into `RUNTIME_ERROR` and the
   * output is verified as usual.
   */
  function Classify(run: Run, v: Verifier, timeout: real): (o: Outcome)
    ensures run.TimedOut? ==> o == Outcome(TimeLimitExcess, timeout)
    ensures run.Finished? && v.Exact? ==>
      (o.status == WrongAnswer <==> Strip(run.stdout) != Strip(v.expected))
    ensures run.Finished? && v.Pred? ==>
      (o.status == WrongAnswer <==> !v.check(run.stdout))
    ensures run.Finished? ==> o.duration == run.elapsed && (o.status == Success || o.status == WrongAnswer)
    ensures o.status != RuntimeError
  {
    match run
    case TimedOut => Outcome(TimeLimitExcess, timeout)
    case Finished(stdout, _, _, elapsed) =>
      Outcome(if Accepts(v, stdout) then Success else WrongAnswer, elapsed)
  }

  /** A timeout is reported the same way whatever the verifier would have said. */
  lemma TimeoutDominates(v1: Verifier, v2: Verifier, timeout: real)
    ensures Classify(TimedOut, v1, timeout) == Classify(TimedOut, v2, timeout)
    ensures Classify(TimedOut, v1, timeout).duration == timeout
  {
  }

  /** Neither the exit code nor the standard error affects the status. */
  lemma ExitCodeIgnored(out: string, err1: string, err2: string, code1: int, code2: int,
                        elapsed: real, v: Verifier, timeout: real)
    ensures Classify(Finished(out, err1, code1, elapsed), v, timeout)
         == Classify(Finished(out, err2, code2, elapsed), v, timeout)
  {
  }

  /** `RUNTIME_ERROR` is never produced: every run ends in one of the other three. */
  lemma RuntimeErrorUnreachable(run: Run, v: Verifier, timeout: real)
    ensures Classify(run, v, timeout).status in {Success, WrongAnswer, TimeLimitExcess}
  {
  }

  /**
   * Exact matching ignores whitespace added at either end of the output, so
   * `" 7\n"` is accepted against `"7"`.
   */
  lemma ExactIgnoresPadding(pre: string, out: string, post: string, expected: string,
                            elapsed: real, timeout: real)
    requires AllSpace(pre) && AllSpace(post)
    ensures Classify(Finished(pre + out + post, "", 0, elapsed), Exact(expected), timeout).status
         == Classify(Finished(out, "", 0, elapsed), Exact(expected), timeout).status
  {
    StripIgnoresPadding(pre, out, post);
  }

  /** A program that prints the expected token on a line of its own passes. */
  lemma PrintedLinePasses(w: string, stderr: string, exitCode: int, elapsed: real, timeout: real)
    requires IsWord(w)
    ensures Classify(Finished(w + "\n", stderr, exitCode, elapsed), Exact(w), timeout).status == Success
  {
    assert !IsSpace(w[0]) && !IsSpace(w[|w| - 1]);
    StripNewline(w);
    assert w[..0] == [] && w[|w|..] == [];
    StripIsTheUniqueTrim(w, 0, |w|);
    assert w[0..|w|] == w;
  }

  lemma ExactSevenExample(elapsed: real, timeout: real)
    ensures Classify(Finished(" 7\n", "", 0, elapsed), Exact("7"), timeout).status == Success
  {
    assert " 7\n" == " " + "7" + "\n";
    StripIgnoresPadding(" ", "7", "\n");
  }

  /**
   * A predicate is applied to the output as printed: a predicate that wants
   * `"7"` rejects `"7\n"` although an exact verifier for `"7"` accepts it.
   */
  lemma PredicateSeesRawOutput(elapsed: real, timeout: real)
    ensures Classify(Finished("7\n", "", 0, elapsed), Pred(s => s == "7"), timeout).status == WrongAnswer
    ensures Classify(Finished("7\n", "", 0, elapsed), Exact("7"), timeout).status == Success
  {
    assert "7\n" == "" + "7" + "\n";
    StripIgnoresPadding("", "7", "\n");
  }
}

=== FILE: lab00.dfy ===
/**
 * `lab00/test/a/spec.py`: two numbers in `0..255` and their sum. The case
 * is named after the set's counter, which `RandomTestSetBase.__next__`
 * increments before calling `generate`.
 */
module Lab00 {
  import opened Results
  import opened Strings
  import opened Harness
  import opened TestSets
  import opened Selection

  /** `random.randint(0, 255)`. */
  type Byte = x: int | 0 <= x <= 255

  /** The two draws of one `generate` call. */
  datatype Draw = Draw(a: Byte, b: Byte)

  /** `get_config()`. */
  function GetConfig(): Config {
    Config(1.0)
  }

  /**
   * `generate(self)` with counter `cnt`: the case is named `"rand"` and the
   * counter, its input holds the two numbers, and its expectation is their
   * sum, which is at most 510; each reads back as drawn.
   */
  function Generate(cnt: nat, d: Draw): (c: TestCase)
    ensures |c.name| > 4 && c.name[..4] == "rand" && ParseNat(c.name[4..]) == Some(cnt)
    ensures Split(c.input, ' ') == [NatToString(d.a), NatToString(d.b)]
    ensures Tokens(c.input) == [NatToString(d.a), NatToString(d.b)]
    ensures ParseNat(NatToString(d.a)) == Some(d.a as nat) && ParseNat(NatToString(d.b)) == Some(d.b as nat)
    ensures c.verifier.Exact? && ParseNat(c.verifier.expected) == Some((d.a + d.b) as nat)
    ensures 0 <= d.a + d.b <= 510
  {
    InputReadsBack(d.a, d.b);
    NameReadsBack(cnt);
    ParseNatToString(d.a + d.b);
    TestCase("rand" + NatToString(cnt), NatToString(d.a) + " " + NatToString(d.b), Exact(NatToString(d.a + d.b)))
  }

  /** The input line `"a b"` splits back into the two numbers. */
  lemma InputReadsBack(a: nat, b: nat)
    ensures Split(NatToString(a) + " " + NatToString(b), ' ') == [NatToString(a), NatToString(b)]
    ensures Tokens(NatToString(a) + " " + NatToString(b)) == [NatToString(a), NatToString(b)]
    ensures ParseNat(NatToString(a)) == Some(a) && ParseNat(NatToString(b)) == Some(b)
  {
    var parts := [NatToString(a), NatToString(b)];
    NatToStringIsWord(a, ' ');
    NatToStringIsWord(b, ' ');
    assert Join(parts, ' ') == NatToString(a) + " " + NatToString(b) by {
      assert parts[1..] == [NatToString(b)];
    }
    SplitJoin(parts, ' ');
    TokensUnwords(parts);
    ParseNatToString(a);
    ParseNatToString(b);
  }

  /** The counter reads back from the name `"rand"` and the counter. */
  lemma NameReadsBack(cnt: nat)
    ensures var name := "rand" + NatToString(cnt);
      |name| > 4 && name[..4] == "rand" && ParseNat(name[4..]) == Some(cnt)
  {
    ParseNatToString(cnt);
    var name := "rand" + NatToString(cnt);
    assert name[..4] == "rand" && name[4..] == NatToString(cnt);
  }

  /** A program that prints the sum on one line passes. */
  lemma PrintedSumPasses(cnt: nat, d: Draw, stderr: string, exitCode: int, elapsed: real)
    ensures Classify(Finished(NatToString(d.a + d.b) + "\n", stderr, exitCode, elapsed),
                     Generate(cnt, d).verifier, GetConfig().timeout).status == Success
  {
    NatToStringIsWord(d.a + d.b, ' ');
    PrintedLinePasses(NatToString(d.a + d.b), stderr, exitCode, elapsed, GetConfig().timeout);
  }

  /** The generator `RandomTestSetBase` calls, the `cnt`-th draw standing for what `random` returns on that call. */
  function Generator(draws: nat -> Draw): nat -> TestCase {
    (cnt: nat) => Generate(cnt, draws(cnt))
  }

  /** The module as the harness loads it. */
  function Spec(draws: nat -> Draw): SpecModule {
    SpecModule(GetConfig(), Some(Generator(draws)))
  }

  function CaseName(cnt: nat): string {
    "rand" + NatToString(cnt)
  }

  lemma GeneratorNames(draws: nat -> Draw)
    ensures forall c: nat :: Generator(draws)(c).name == CaseName(c)
  {
    forall c: nat ensures Generator(draws)(c).name == CaseName(c) {
      assert Generator(draws)(c) == Generate(c, draws(c));
    }
  }

  /** Different counters give different case names. */
  lemma CaseNameInjective(a: nat, b: nat)
    ensures "rand" + NatToString(a) == "rand" + NatToString(b) ==> a == b
  {
    var p := "rand";
    var sa, sb := NatToString(a), NatToString(b);
    assert (p + sa)[|p|..] == sa && (p + sb)[|p|..] == sb;
    if sa == sb {
      NatToStringInjective(a, b);
    }
  }

  /** With `-r N`, the set names its cases `rand1` to `randN`, all distinct. */
  lemma NamesAreDistinct(draws: nat -> Draw, num: nat)
    ensures var cs := Drain(NewRandom(Generator(draws), num)).cases;
            && |cs| == num
            && (forall i :: 0 <= i < num ==> cs[i].name == "rand" + NatToString(i + 1))
            && (forall i, j :: 0 <= i < j < num ==> cs[i].name != cs[j].name)
  {
    var g := Generator(draws);
    GeneratorNames(draws);
    RandomNames(g, num, CaseName);
    var cs := Drain(NewRandom(g, num)).cases;
    forall i, j | 0 <= i < j < num ensures cs[i].name != cs[j].name {
      CaseNameInjective(i + 1, j + 1);
    }
  }
}

=== FILE: lab02a.dfy ===
/**
 * `lab02/test/a/spec.py`: `t` numbers in `1..10^9`, `t` in `1..100`; the
 * input is `t` and then each number on a line of its own, and the expected
 * output has one line per number, `Bob` when the number is a multiple of 6
 * and `Alice` otherwise. Every case is named `"rand"`.
 */
module Lab02a {
  import opened Results
  import opened Strings
  import opened Harness
  import opened TestSets
  import opened Selection

  /** `t = random.randint(1, 100)` and the `t` calls `random.randint(1, 10**9)`. */
  datatype Draw = Draw(t: nat, ns: seq<nat>)

  predicate InRange(d: Draw) {
    && 1 <= d.t <= 100 && |d.ns| == d.t
    && forall i :: 0 <= i < |d.ns| ==> 1 <= d.ns[i] <= 1000000000
  }

  type ValidDraw = d: Draw | InRange(d) witness Draw(1, [1])

  /** `get_config()`. */
  function GetConfig(): Config {
    Config(1.0)
  }

  /** The line expected for one number. */
  function Verdict(n: nat): string {
    if n % 6 == 0 then "Bob" else "Alice"
  }

  /** What `output += "\n" + str(n)` adds over the loop, in order. */
  function NumberLines(ns: seq<nat>): string {
    if |ns| == 0 then "" else "\n" + NatToString(ns[0]) + NumberLines(ns[1..])
  }

  /** What `verifier += "Bob\n"` or `"Alice\n"` adds over the loop, in order. */
  function VerdictLines(ns: seq<nat>): string {
    if |ns| == 0 then "" else Verdict(ns[0]) + "\n" + VerdictLines(ns[1..])
  }


  function Decimals(ns: seq<nat>): (ss: seq<string>)
    ensures |ss| == |ns| && forall i :: 0 <= i < |ns| ==> ss[i] == NatToString(ns[i])
  {
    seq(|ns|, i requires 0 <= i < |ns| => NatToString(ns[i]))
  }

  function Verdicts(ns: seq<nat>): (vs: seq<string>)
    ensures |vs| == |ns| && forall i :: 0 <= i < |ns| ==> vs[i] == Verdict(ns[i])
  {
    seq(|ns|, i requires 0 <= i < |ns| => Verdict(ns[i]))
  }

  /** One line `Bob` for a multiple of 6, `Alice` for anything else. */
  lemma VerdictIsBobIffMultipleOfSix(n: nat)
    ensures Verdict(n) == "Bob" <==> n % 6 == 0
    ensures Verdict(n) == "Alice" <==> n % 6 != 0
    ensures '\n' !in Verdict(n)
  {
    assert "Bob" != "Alice" by { assert "Bob"[0] != "Alice"[0]; }
  }

  lemma {:induction false} NumberLinesJoin(first: string, ns: seq<nat>)
    ensures first + NumberLines(ns) == Join([first] + Decimals(ns), '\n')
    decreases |ns|
  {
    if |ns| > 0 {
      var s := NatToString(ns[0]);
      NumberLinesJoin(s, ns[1..]);
      assert ([first] + Decimals(ns))[1..] == [s] + Decimals(ns[1..]);
      assert first + NumberLines(ns) == first + "\n" + (s + NumberLines(ns[1..]));
    } else {
      assert first + "" == first;
    }
  }

  /**
   * `generate(self)`: a case named `"rand"` whose input lines are `t` and
   * then each number, and whose expectation, split at newlines, is one
   * verdict per number followed by the empty remainder after the last
   * newline.
   */
  function Generate(d: ValidDraw): (c: TestCase)
    ensures c.name == "rand"
    ensures Split(c.input, '\n') == [NatToString(d.t)] + Decimals(d.ns)
    ensures c.verifier.Exact? && Split(c.verifier.expected, '\n') == Verdicts(d.ns) + [""]
  {
    var parts := [NatToString(d.t)] + Decimals(d.ns);
    NumberLinesJoin(NatToString(d.t), d.ns);
    forall i | 0 <= i < |parts| ensures '\n' !in parts[i] {
      if i == 0 { NatToStringIsWord(d.t, '\n'); } else { NatToStringIsWord(d.ns[i - 1], '\n'); }
    }
    SplitJoin(parts, '\n');
    ExpectedLines(d.ns);
    TestCase("rand", NatToString(d.t) + NumberLines(d.ns), Exact(VerdictLines(d.ns)))
  }

  /** The input's lines are `t` and then the numbers, each read back as drawn. */
  lemma InputLines(d: ValidDraw)
    ensures var lines := Split(Generate(d).input, '\n');
            && |lines| == d.t + 1
            && ParseNat(lines[0]) == Some(d.t)
            && forall i :: 0 <= i < d.t ==> ParseNat(lines[i + 1]) == Some(d.ns[i])
  {
    var parts := [NatToString(d.t)] + Decimals(d.ns);
    ParseNatToString(d.t);
    forall i | 0 <= i < d.t ensures ParseNat(parts[i + 1]) == Some(d.ns[i]) {
      ParseNatToString(d.ns[i]);
    }
  }

  /** Split at newlines, the expected output is one verdict per number, each ended by a newline. */
  lemma {:induction false} ExpectedLines(ns: seq<nat>)
    ensures Split(VerdictLines(ns), '\n') == Verdicts(ns) + [""]
    decreases |ns|
  {
    if |ns| == 0 {
      assert Verdicts(ns) + [""] == [""];
    } else {
      var v := Verdict(ns[0]);
      var rest := VerdictLines(ns[1..]);
      ExpectedLines(ns[1..]);
      VerdictIsBobIffMultipleOfSix(ns[0]);
      assert VerdictLines(ns) == v + ("\n" + rest);
      SplitPrefix(v, "\n" + rest, '\n');
      assert ("\n" + rest)[1..] == rest;
      assert Split("\n" + rest, '\n') == [""] + Split(rest, '\n');
      assert v + "" == v;
      assert Verdicts(ns) + [""] == [v] + (Verdicts(ns[1..]) + [""]);
    }
  }

  /** The expected output has exactly `t` lines, the `i`-th `Bob` exactly when the `i`-th number is a multiple of 6. */
  lemma ExpectedShape(d: ValidDraw)
    ensures var lines := Split(Generate(d).verifier.expected, '\n');
            && |lines| == d.t + 1 && lines[d.t] == ""
            && forall i :: 0 <= i < d.t ==> (lines[i] == "Bob" <==> d.ns[i] % 6 == 0) && (lines[i] == "Alice" <==> d.ns[i] % 6 != 0)
  {
    forall i | 0 <= i < d.t ensures (Verdict(d.ns[i]) == "Bob" <==> d.ns[i] % 6 == 0) && (Verdict(d.ns[i]) == "Alice" <==> d.ns[i] % 6 != 0) {
      VerdictIsBobIffMultipleOfSix(d.ns[i]);
    }
  }

  /** The last newline is not needed: an output without it passes just the same. */
  lemma FinalNewlineOptional(d: ValidDraw, out: string, stderr: string, exitCode: int, elapsed: real)
    requires out + "\n" == VerdictLines(d.ns)
    ensures Classify(Finished(out, stderr, exitCode, elapsed), Generate(d).verifier, GetConfig().timeout).status == Success
  {
    StripIgnoresPadding("", out, "\n");
    assert "" + out + "\n" == out + "\n";
  }

  function Generator(draws: nat -> ValidDraw): nat -> TestCase {
    (cnt: nat) => Generate(draws(cnt))
  }

  /** The module as the harness loads it. */
  function Spec(draws: nat -> ValidDraw): SpecModule {
    SpecModule(GetConfig(), Some(Generator(draws)))
  }

  /** Every case of a random set is named `"rand"`, so with two or more cases the names repeat. */
  lemma NamesRepeat(draws: nat -> ValidDraw, num: nat)
    ensures var cs := Drain(NewRandom(Generator(draws), num)).cases;
            |cs| == num && forall i :: 0 <= i < num ==> cs[i].name == "rand"
  {
    var g := Generator(draws);
    forall c: nat ensures g(c).name == "rand" {
      assert g(c) == Generate(draws(c));
    }
    RandomNames(g, num, (c: nat) => "rand");
  }
}

=== FILE: lab02b.dfy ===
/**
 * `lab02/test/b/spec.py`: for `n` in `1..10^9` and `k` in `1..n`, the
 * expected answer is `2 * min(k, n + 1 - k)`, replaced by `1` when `n == 1`.
 * Every case is named `"rand"`.
 */
module Lab02b {
  import opened Results
  import opened Strings
  import opened Harness
  import opened TestSets
  import opened Selection

  /** `random.randint(1, 10**9)` followed by `random.randint(1, n)`. */
  datatype Draw = Draw(n: int, k: int)

  predicate InRange(d: Draw) {
    1 <= d.n <= 1000000000 && 1 <= d.k <= d.n
  }

  /** The draws of one `generate` call, as `randint` can return them. */
  type ValidDraw = d: Draw | InRange(d) witness Draw(1, 1)

  /** `get_config()`. */
  function GetConfig(): Config {
    Config(1.0)
  }

  function Min(a: int, b: int): int {
    if a <= b then a else b
  }

  /** The number the expected output spells. */
  function Answer(d: ValidDraw): (v: nat)
  {
    if d.n == 1 then 1 else 2 * Min(d.k, d.n + 1 - d.k)
  }

  /** `generate(self)`: a case named `"rand"` whose expectation spells the answer and reads back as it. */
  function Generate(d: ValidDraw): (c: TestCase)
    ensures c.name == "rand"
    ensures c.verifier == Exact(NatToString(Answer(d)))
    ensures ParseNat(c.verifier.expected) == Some(Answer(d))
  {
    assert NatToString(1) == "1";
    ParseNatToString(Answer(d));
    var verifier := NatToString(2 * Min(d.k, d.n + 1 - d.k));
    TestCase("rand", NatToString(d.n) + " " + NatToString(d.k), Exact(if d.n == 1 then "1" else verifier))
  }

  /**
   * The answer is 1 for the single position, and otherwise an even number
   * between 2 and `n + 1`, the same for `k` and its mirror `n + 1 - k`.
   */
  lemma AnswerShape(d: ValidDraw)
    ensures d.n == 1 ==> Answer(d) == 1
    ensures d.n > 1 ==> 2 <= Answer(d) <= d.n + 1 && Answer(d) % 2 == 0
    ensures Answer(d) == Answer(Draw(d.n, d.n + 1 - d.k))
  {
  }

  /**
   * The general formula `2 * min(k, n + 1 - k)` gives the expectation for
   * every draw but the single position, where it would give `2` instead of
   * the `1` expected.
   */
  lemma SpecialCaseNeeded(d: ValidDraw)
    ensures d.n > 1 ==> Generate(d).verifier.expected == NatToString(2 * Min(d.k, d.n + 1 - d.k))
    ensures d.n == 1 ==> Generate(d).verifier.expected != NatToString(2 * Min(d.k, d.n + 1 - d.k))
  {
    if d.n == 1 {
      assert d.k == 1 && 2 * Min(d.k, d.n + 1 - d.k) == 2;
      assert NatToString(1) == "1" && NatToString(2) == "2";
    }
  }

  /** The input holds `n` and `k`, in that order. */
  lemma InputReadsBack(d: ValidDraw)
    ensures Split(Generate(d).input, ' ') == [NatToString(d.n), NatToString(d.k)]
    ensures Tokens(Generate(d).input) == [NatToString(d.n), NatToString(d.k)]
    ensures ParseNat(NatToString(d.n)) == Some(d.n as nat) && ParseNat(NatToString(d.k)) == Some(d.k as nat)
  {
    var parts := [NatToString(d.n), NatToString(d.k)];
    NatToStringIsWord(d.n, ' ');
    NatToStringIsWord(d.k, ' ');
    assert Join(parts, ' ') == NatToString(d.n) + " " + NatToString(d.k) by {
      assert parts[1..] == [NatToString(d.k)];
    }
    SplitJoin(parts, ' ');
    TokensUnwords(parts);
    ParseNatToString(d.n);
    ParseNatToString(d.k);
  }

  /** A program that prints the answer on one line passes. */
  lemma PrintedAnswerPasses(d: ValidDraw, stderr: string, exitCode: int, elapsed: real)
    ensures Classify(Finished(NatToString(Answer(d)) + "\n", stderr, exitCode, elapsed),
                     Generate(d).verifier, GetConfig().timeout).status == Success
  {
    AnswerShape(d);
    NatToStringIsWord(Answer(d), ' ');
    PrintedLinePasses(NatToString(Answer(d)), stderr, exitCode, elapsed, GetConfig().timeout);
  }

  function Generator(draws: nat -> ValidDraw): nat -> TestCase {
    (cnt: nat) => Generate(draws(cnt))
  }

  /** The module as the harness loads it. */
  function Spec(draws: nat -> ValidDraw): SpecModule {
    SpecModule(GetConfig(), Some(Generator(draws)))
  }

  /** Every case of a random set is named `"rand"`, so with two or more cases the names repeat. */
  lemma NamesRepeat(draws: nat -> ValidDraw, num: nat)
    ensures var cs := Drain(NewRandom(Generator(draws), num)).cases;
            |cs| == num && forall i :: 0 <= i < num ==> cs[i].name == "rand"
  {
    var g := Generator(draws);
    forall c: nat ensures g(c).name == "rand" {
      assert g(c) == Generate(draws(c));
    }
    RandomNames(g, num, (c: nat) => "rand");
  }
}

=== FILE: orchestrator.dfy ===
/**
 * `Test.unit_test`, `Test.match_test`, `Test.test_main` and `Test.perform`:
 * the test sets run one after another, each case judged once in the order
 * its set yields it, each set's buckets merged into the run-wide ones, and a
 * summary computed at the end of each set and of the run.
 */
module Orchestrator {
  import opened Results
  import opened Harness
  import opened TestSets
  import opened Selection
  import opened Aggregate

  /** One case judged: `exec` stands for running the executable under test on an input. */
  function Judge(c: TestCase, exec: string -> Run, timeout: real): CaseRecord {
    CaseRecord(c.name, Classify(exec(c.input), c.verifier, timeout))
  }

  function JudgeAll(cs: seq<TestCase>, exec: string -> Run, timeout: real): (rs: seq<CaseRecord>)
    ensures |rs| == |cs|
    ensures forall i :: 0 <= i < |cs| ==> rs[i] == Judge(cs[i], exec, timeout)
  {
    if |cs| == 0 then [] else [Judge(cs[0], exec, timeout)] + JudgeAll(cs[1..], exec, timeout)
  }

  /**
   * A case whose predicate verifier rejects the output. `unit_test` then
   * calls `post_testcase(status, duration)` without the `result` keyword,
   * and `post_testcase`, after adding the case to its bucket, reads
   * `kwargs['result']` for the `WRONG_ANSWER` message and raises `KeyError`,
   * which nothing in `unit_test` catches.
   */
  predicate Rejected(c: TestCase, exec: string -> Run) {
    c.verifier.Pred? && exec(c.input).Finished? && !c.verifier.check(exec(c.input).stdout)
  }

  /** The cases that raise are exactly those judged `WRONG_ANSWER` by a predicate. */
  lemma RejectedIsPredicateWrongAnswer(c: TestCase, exec: string -> Run, timeout: real)
    ensures Rejected(c, exec) <==> c.verifier.Pred? && Judge(c, exec, timeout).outcome.status == WrongAnswer
  {
  }

  /** The position of the first rejected case from `p` on, or `|cs|` if there is none. */
  function FirstRejected(cs: seq<TestCase>, exec: string -> Run, p: nat): (m: nat)
    requires p <= |cs|
    ensures p <= m <= |cs|
    ensures forall i :: p <= i < m ==> !Rejected(cs[i], exec)
    ensures m < |cs| ==> Rejected(cs[m], exec)
    decreases |cs| - p
  {
    if p == |cs| || Rejected(cs[p], exec) then p else FirstRejected(cs, exec, p + 1)
  }

  /** Any rejected case with no rejected case before it is the one `FirstRejected` finds. */
  lemma FirstRejectedIsFirst(cs: seq<TestCase>, exec: string -> Run, k: nat)
    requires k < |cs| && Rejected(cs[k], exec)
    requires forall i :: 0 <= i < k ==> !Rejected(cs[i], exec)
    ensures FirstRejected(cs, exec, 0) == k
  {
  }

  lemma FirstRejectedStep(cs: seq<TestCase>, exec: string -> Run, p: nat)
    requires p < |cs|
    ensures FirstRejected(cs, exec, p) == if Rejected(cs[p], exec) then p else FirstRejected(cs, exec, p + 1)
  {
  }

  /** No case is rejected by its predicate. */
  predicate NoneRejected(cs: seq<TestCase>, exec: string -> Run) {
    forall i :: 0 <= i < |cs| ==> !Rejected(cs[i], exec)
  }

  /** Some case has a non-empty name. */
  predicate SomeNamed(cs: seq<TestCase>) {
    exists i :: 0 <= i < |cs| && cs[i].name != []
  }

  /** As written, the judged cases' total is positive exactly when some case has a non-empty name. */
  lemma JudgedNames(cs: seq<TestCase>, exec: string -> Run, timeout: real)
    ensures NameChars(JudgeAll(cs, exec, timeout)) > 0 <==> SomeNamed(cs)
  {
    var records := JudgeAll(cs, exec, timeout);
    NameCharsPositive(records);
    if SomeNamed(cs) {
      var i :| 0 <= i < |cs| && cs[i].name != [];
      assert records[i].name == cs[i].name;
    }
    if exists i :: 0 <= i < |records| && records[i].name != [] {
      var i :| 0 <= i < |records| && records[i].name != [];
      assert records[i].name == cs[i].name;
    }
  }

  /** Judging one more case appends its record. */
  lemma JudgeAllSnoc(cs: seq<TestCase>, c: TestCase, exec: string -> Run, timeout: real)
    ensures JudgeAll(cs + [c], exec, timeout) == JudgeAll(cs, exec, timeout) + [Judge(c, exec, timeout)]
  {
    var l, r := JudgeAll(cs + [c], exec, timeout), JudgeAll(cs, exec, timeout) + [Judge(c, exec, timeout)];
    assert |l| == |r|;
    forall i | 0 <= i < |l| ensures l[i] == r[i] {
      if i < |cs| { assert (cs + [c])[i] == cs[i]; } else { assert (cs + [c])[i] == c; }
    }
  }

  /** One yielded case moves from the front of what is left to the end of what was seen. */
  lemma RunSetYield(t: TestSet, c: TestCase, rest: TestSet, cs0: seq<TestCase>, seen: seq<TestCase>)
    requires Valid(t) && Finite(t) && Next(t) == Yield(c, rest)
    requires cs0 == seen + Drain(t).cases
    ensures Valid(rest) && Finite(rest) && Remaining(rest) < Remaining(t)
    ensures cs0 == (seen + [c]) + Drain(rest).cases && Drain(rest).error == Drain(t).error
    ensures |seen| < |cs0| && cs0[|seen|] == c
  {
    DrainYield(t, c, rest);
    assert seen + ([c] + Drain(rest).cases) == (seen + [c]) + Drain(rest).cases;
  }

  /** A set that stops or fails has nothing left to yield. */
  lemma RunSetEnd(t: TestSet, cs0: seq<TestCase>, seen: seq<TestCase>)
    requires Valid(t) && Finite(t) && !Next(t).Yield?
    requires cs0 == seen + Drain(t).cases
    ensures cs0 == seen
    ensures Drain(t).error == if Next(t).Fail? then Some(Next(t).error) else None
  {
    assert seen + [] == seen;
  }

  /**
   * The inner loop `for casename, unit_case, verifier in testset` of
   * `unit_test` over one finite set: it pulls cases until the set stops or
   * fails, judging each one, and stops with `KeyError` right after judging a
   * case its predicate rejects.
   */
  method RunSet(t0: TestSet, exec: string -> Run, timeout: real) returns (records: seq<CaseRecord>, error: Option<Fatal>)
    requires Valid(t0) && Finite(t0)
    ensures |records| <= |Drain(t0).cases|
    ensures records == JudgeAll(Drain(t0).cases[..|records|], exec, timeout)
    ensures var cs := Drain(t0).cases;
            var m := FirstRejected(cs, exec, 0);
            if m < |cs| then |records| == m + 1 && error == Some(MissingResult(cs[m].name))
            else |records| == |cs| && error == Drain(t0).error
  {
    var t := t0;
    records := [];
    ghost var cs0 := Drain(t0).cases;
    ghost var seen: seq<TestCase> := [];
    while true
      invariant Valid(t) && Finite(t)
      invariant cs0 == seen + Drain(t).cases
      invariant Drain(t0).error == Drain(t).error
      invariant |records| == |seen|
      invariant records == JudgeAll(seen, exec, timeout)
      invariant FirstRejected(cs0, exec, 0) == FirstRejected(cs0, exec, |seen|)
      decreases Remaining(t)
    {
      var pulled := Next(t);
      if !pulled.Yield? {
        RunSetEnd(t, cs0, seen);
        assert FirstRejected(cs0, exec, 0) == |cs0|;
        return records, if pulled.Fail? then Some(pulled.error) else None;
      }
      var c, rest := pulled.tc, pulled.rest;
      RunSetYield(t, c, rest, cs0, seen);
      FirstRejectedStep(cs0, exec, |seen|);
      JudgeAllSnoc(seen, c, exec, timeout);
      records := records + [Judge(c, exec, timeout)];
      seen := seen + [c];
      if Rejected(c, exec) {
        assert FirstRejected(cs0, exec, 0) == |seen| - 1 && cs0[|seen| - 1] == c;
        return records, Some(MissingResult(c.name));
      }
      t := rest;
    }
  }

  /**
   * What iterating one set amounts to, as far as the outer loop is
   * concerned: the loop over it never ends, or it yields the judged cases
   * and perhaps a fatal error.
   */
  datatype SetRun = Hangs(name: string) | Ran(report: SetReport, error: Option<Fatal>)

  /** What `post_testset` knows about a finished set. */
  datatype SetReport = SetReport(name: string, records: seq<CaseRecord>, buckets: Buckets<char>)

  /**
   * The buckets of a report are those `post_testcase` fills from its
   * records, so they hold one item per character of its case names.
   */
  predicate Tallied(r: SetReport) {
    && r.buckets == Collect(r.records, AsWritten)
    && Total(r.buckets) == NameChars(r.records)
  }

  /**
   * A random set that never stops but generates, at some counter still to
   * come, a case its predicate rejects: the loop over it ends there.
   */
  ghost predicate RejectsSomeDraw(t: TestSet, exec: string -> Run) {
    t.Random? && exists c: nat :: t.cnt < c && Rejected(t.generate(c), exec)
  }

  /** A set the inner loop never leaves: it never stops, and no predicate of its rejects a case. */
  ghost predicate NeverEnds(t: TestSet, exec: string -> Run) {
    !Finite(t) && !RejectsSomeDraw(t, exec)
  }

  /** The `k`-th case generated after counter `cnt` is the first one rejected. */
  predicate FirstRejectedAfter(g: nat -> TestCase, cnt: nat, k: nat, exec: string -> Run) {
    && k > 0
    && (forall c: nat :: cnt < c < cnt + k ==> !Rejected(g(c), exec))
    && Rejected(g(cnt + k), exec)
  }

  /** `records` are the judged cases generated for the counters after `cnt`, in order. */
  predicate JudgedDraws(records: seq<CaseRecord>, g: nat -> TestCase, cnt: nat, exec: string -> Run, timeout: real) {
    forall i :: 0 <= i < |records| ==> records[i] == Judge(g(cnt + i + 1), exec, timeout)
  }

  /**
   * `s` judged the cases generated after counter `cnt`, in order, up to the
   * first one rejected, and ended with that case's `KeyError`.
   */
  predicate StopsAtFirstRejectedDraw(s: SetRun, g: nat -> TestCase, cnt: nat, exec: string -> Run, timeout: real) {
    && s.Ran?
    && FirstRejectedAfter(g, cnt, |s.report.records|, exec)
    && JudgedDraws(s.report.records, g, cnt, exec, timeout)
    && s.error == Some(MissingResult(g(cnt + |s.report.records|).name))
  }

  /**
   * The cases generated for the counters after `cnt`, in order, up to and
   * including the first one rejected; the rejected draw `w` bounds the search.
   */
  function DrawsUntilRejected(g: nat -> TestCase, cnt: nat, w: nat, exec: string -> Run): (cs: seq<TestCase>)
    requires cnt < w && Rejected(g(w), exec)
    ensures 0 < |cs| <= w - cnt
    ensures forall i :: 0 <= i < |cs| ==> cs[i] == g(cnt + i + 1)
    ensures FirstRejectedAfter(g, cnt, |cs|, exec)
    decreases w - cnt
  {
    if Rejected(g(cnt + 1), exec) then [g(cnt + 1)]
    else [g(cnt + 1)] + DrawsUntilRejected(g, cnt + 1, w, exec)
  }

  /** The report of a set whose loop judged `judged` and then ended with `error`. */
  function Played(name: string, judged: seq<TestCase>, exec: string -> Run, timeout: real,
                  error: Option<Fatal>): (s: SetRun)
    ensures s.Ran? && s.report.name == name && s.error == error
    ensures s.report.records == JudgeAll(judged, exec, timeout)
    ensures Tallied(s.report)
  {
    var records := JudgeAll(judged, exec, timeout);
    AsWrittenCounts(records);
    Ran(SetReport(name, records, Collect(records, AsWritten)), error)
  }

  /**
   * A set that stops, played through the inner loop (`RunSet` computes the
   * same records and error): the cases are judged in order up to and
   * including the first one its predicate rejects, which raises `KeyError`;
   * without such a case the set's own error, if any, ends it.
   */
  function PlayFinite(t: TestSet, exec: string -> Run, timeout: real): (s: SetRun)
    requires Valid(t) && Finite(t)
    ensures s.Ran? && s.report.name == Name(t) && Tallied(s.report)
    ensures |s.report.records| <= |Drain(t).cases|
    ensures forall i :: 0 <= i < |s.report.records| ==> s.report.records[i] == Judge(Drain(t).cases[i], exec, timeout)
    ensures s.error.None? ==>
      |s.report.records| == |Drain(t).cases| && forall i :: 0 <= i < |Drain(t).cases| ==> !Rejected(Drain(t).cases[i], exec)
  {
    var d := Drain(t);
    var m := FirstRejected(d.cases, exec, 0);
    if m < |d.cases| then Played(Name(t), d.cases[..m + 1], exec, timeout, Some(MissingResult(d.cases[m].name)))
    else Played(Name(t), d.cases, exec, timeout, d.error)
  }

  /**
   * A random set with a negative count, played through the inner loop: it
   * yields case after case, and the loop ends only with the `KeyError` of
   * the first case its predicate rejects, the earlier ones judged before it.
   */
  ghost function PlayUnbounded(t: TestSet, exec: string -> Run, timeout: real): (s: SetRun)
    requires Valid(t) && !Finite(t)
    ensures s.Hangs? <==> !RejectsSomeDraw(t, exec)
    ensures s.Ran? ==> s.report.name == Name(t) && Tallied(s.report)
    ensures s.Ran? ==> StopsAtFirstRejectedDraw(s, t.generate, t.cnt, exec, timeout)
  {
    if RejectsSomeDraw(t, exec) then PlayDraws(Name(t), t.generate, t.cnt, RejectedDraw(t, exec), exec, timeout)
    else Hangs(Name(t))
  }

  /** Some counter to come whose generated case is rejected. */
  ghost function RejectedDraw(t: TestSet, exec: string -> Run): (w: nat)
    requires RejectsSomeDraw(t, exec)
    ensures t.Random? && t.cnt < w && Rejected(t.generate(w), exec)
  {
    var w: nat :| t.cnt < w && Rejected(t.generate(w), exec); w
  }

  /**
   * The cases drawn after counter `cnt`, played up to the first rejected
   * one, given a rejected draw `w` that bounds the search.
   */
  function PlayDraws(name: string, g: nat -> TestCase, cnt: nat, w: nat, exec: string -> Run, timeout: real): (s: SetRun)
    requires cnt < w && Rejected(g(w), exec)
    ensures s.Ran? && s.report.name == name && Tallied(s.report)
    ensures |s.report.records| <= w - cnt && StopsAtFirstRejectedDraw(s, g, cnt, exec, timeout)
  {
    var cs := DrawsUntilRejected(g, cnt, w, exec);
    var s := Played(name, cs, exec, timeout, Some(MissingResult(cs[|cs| - 1].name)));
    PlayedDraws(s, g, cnt, cs, exec, timeout);
    s
  }

  /** Judging draws up to the first rejected one, then raising its `KeyError`, is such a run. */
  lemma PlayedDraws(s: SetRun, g: nat -> TestCase, cnt: nat, cs: seq<TestCase>, exec: string -> Run, timeout: real)
    requires |cs| > 0 && FirstRejectedAfter(g, cnt, |cs|, exec)
    requires forall i :: 0 <= i < |cs| ==> cs[i] == g(cnt + i + 1)
    requires s.Ran? && s.report.records == JudgeAll(cs, exec, timeout)
    requires s.error == Some(MissingResult(cs[|cs| - 1].name))
    ensures StopsAtFirstRejectedDraw(s, g, cnt, exec, timeout)
  {
    var records := s.report.records;
    assert |records| == |cs|;
    forall i | 0 <= i < |records|
      ensures records[i] == Judge(g(cnt + i + 1), exec, timeout)
    {
      assert records[i] == Judge(cs[i], exec, timeout);
    }
    assert cs[|cs| - 1] == g(cnt + |records|);
  }

  /**
   * One set played through the inner loop, with the buckets `post_testcase`
   * fills. The loop never ends exactly when the set never stops and no
   * predicate of its rejects a case; otherwise the cases are judged in order
   * up to the first rejected one, whose `KeyError` ends the set, and a set
   * that stops without such a case ends with its own error, if any.
   */
  ghost function Play(t: TestSet, exec: string -> Run, timeout: real): (s: SetRun)
    requires Valid(t)
    ensures s.Hangs? <==> NeverEnds(t, exec)
    ensures s.Ran? ==> s.report.name == Name(t) && Tallied(s.report)
    ensures s.Ran? && Finite(t) ==>
      && |s.report.records| <= |Drain(t).cases|
      && forall i :: 0 <= i < |s.report.records| ==> s.report.records[i] == Judge(Drain(t).cases[i], exec, timeout)
    ensures s.Ran? && s.error.None? ==>
      && Finite(t)
      && |s.report.records| == |Drain(t).cases|
      && forall i :: 0 <= i < |Drain(t).cases| ==> !Rejected(Drain(t).cases[i], exec)
    ensures s.Ran? && !Finite(t) ==> StopsAtFirstRejectedDraw(s, t.generate, t.cnt, exec, timeout)
  {
    PlayCases(t, exec, timeout);
    if Finite(t) then PlayFinite(t, exec, timeout) else PlayUnbounded(t, exec, timeout)
  }

  /** What `Play` promises, gathered from the two kinds of set. */
  lemma PlayCases(t: TestSet, exec: string -> Run, timeout: real)
    requires Valid(t)
    ensures var s := if Finite(t) then PlayFinite(t, exec, timeout) else PlayUnbounded(t, exec, timeout);
      && (s.Hangs? <==> NeverEnds(t, exec))
      && (s.Ran? ==> s.report.name == Name(t) && Tallied(s.report))
      && (s.Ran? && Finite(t) ==>
            && |s.report.records| <= |Drain(t).cases|
            && forall i :: 0 <= i < |s.report.records| ==> s.report.records[i] == Judge(Drain(t).cases[i], exec, timeout))
      && (s.Ran? && s.error.None? ==>
            && Finite(t)
            && |s.report.records| == |Drain(t).cases|
            && forall i :: 0 <= i < |Drain(t).cases| ==> !Rejected(Drain(t).cases[i], exec))
      && (s.Ran? && !Finite(t) ==> StopsAtFirstRejectedDraw(s, t.generate, t.cnt, exec, timeout))
  {
    if Finite(t) {
      var s := PlayFinite(t, exec, timeout);
      assert s.Ran?;
    } else {
      var s := PlayUnbounded(t, exec, timeout);
      assert s.Hangs? <==> NeverEnds(t, exec);
    }
  }

  /**
   * A set with a rejected case, none before it, ends with `KeyError` right
   * after that case, which is judged `WRONG_ANSWER`.
   */
  lemma PlayStopsAtRejection(t: TestSet, exec: string -> Run, timeout: real, k: nat)
    requires Valid(t) && Finite(t)
    requires k < |Drain(t).cases| && Rejected(Drain(t).cases[k], exec)
    requires forall i :: 0 <= i < k ==> !Rejected(Drain(t).cases[i], exec)
    ensures Play(t, exec, timeout).error == Some(MissingResult(Drain(t).cases[k].name))
    ensures |Play(t, exec, timeout).report.records| == k + 1
    ensures Play(t, exec, timeout).report.records[k].outcome.status == WrongAnswer
  {
    FirstRejectedIsFirst(Drain(t).cases, exec, k);
  }

  /**
   * A set `unit_test` gets through, in the source's terms: it stops, raises
   * nothing, none of its cases is rejected by a predicate, and some case has
   * a non-empty name, so that `post_testset` does not divide by zero.
   */
  predicate SetPasses(t: TestSet, exec: string -> Run)
    requires Valid(t)
  {
    Finite(t) && Drain(t).error.None? && NoneRejected(Drain(t).cases, exec) && SomeNamed(Drain(t).cases)
  }

  ghost function PlayAll(sets: seq<TestSet>, exec: string -> Run, timeout: real): (runs: seq<SetRun>)
    requires forall i :: 0 <= i < |sets| ==> Valid(sets[i])
    ensures |runs| == |sets|
    ensures forall i :: 0 <= i < |sets| ==> runs[i] == Play(sets[i], exec, timeout)
    ensures forall i :: 0 <= i < |sets| ==> (runs[i].Hangs? <==> NeverEnds(sets[i], exec))
    ensures forall i :: 0 <= i < |sets| ==> runs[i].Ran? ==> runs[i].report.name == Name(sets[i])
  {
    if |sets| == 0 then [] else [Play(sets[0], exec, timeout)] + PlayAll(sets[1..], exec, timeout)
  }

  /**
   * How a run ends: with every set summarised; cut short by a fatal error
   * (with the sets finished before it and the cases already judged in the
   * set it happened in); or never, because a set does not stop.
   */
  datatype RunOutcome =
    | Completed(reports: seq<SetReport>, acc: Buckets<char>)
    | Aborted(error: Fatal, reports: seq<SetReport>, partial: seq<CaseRecord>)
    | Endless(reports: seq<SetReport>)

  /** A set `unit_test` gets through: it stops, raises nothing, and its summary divides by a non-zero total. */
  predicate Passes(s: SetRun) {
    s.Ran? && s.error.None? && Total(s.report.buckets) > 0
  }

  /** Playing a set gets through it exactly when the set passes in the source's terms. */
  lemma PlayPasses(t: TestSet, exec: string -> Run, timeout: real)
    requires Valid(t)
    ensures Passes(Play(t, exec, timeout)) <==> SetPasses(t, exec)
  {
    if Finite(t) {
      var cs := Drain(t).cases;
      var m := FirstRejected(cs, exec, 0);
      if m == |cs| {
        JudgedNames(cs, exec, timeout);
        assert Play(t, exec, timeout).report.records == JudgeAll(cs, exec, timeout);
      } else {
        assert Play(t, exec, timeout).error.Some?;
      }
    }
  }

  function BucketsOf(reports: seq<SetReport>): seq<Buckets<char>>
  {
    if |reports| == 0 then [] else BucketsOf(reports[..|reports| - 1]) + [reports[|reports| - 1].buckets]
  }

  lemma BucketsOfSnoc(reports: seq<SetReport>, r: SetReport)
    ensures BucketsOf(reports + [r]) == BucketsOf(reports) + [r.buckets]
  {
    assert (reports + [r])[..|reports|] == reports;
  }

  /**
   * The outer loop of `unit_test` from set `runs[0]` on, after the reports
   * `done`; then `post_test`. `post_testset` merges each set's buckets into
   * the run-wide ones as soon as the set ends; `MergeKeepsSetOrder` shows
   * that this is the same as merging the finished sets' buckets in order,
   * which is how the run-wide buckets are written here.
   */
  function RunSets(runs: seq<SetRun>, done: seq<SetReport>): (o: RunOutcome)
    ensures |done| <= |o.reports| <= |done| + |runs|
    decreases |runs|
  {
    if |runs| == 0 then
      var acc := Merge(BucketsOf(done));
      match Percent(Successes(acc), Total(acc), "run")
      case Err(e) => Aborted(e, done, [])
      case Ok(_) => Completed(done, acc)
    else
      var s := runs[0];
      match s
      case Hangs(_) => Endless(done)
      case Ran(report, error) =>
        if error.Some? then Aborted(error.value, done, report.records)
        else
          match Percent(Successes(report.buckets), Total(report.buckets), report.name)
          case Err(e) => Aborted(e, done, report.records)
          case Ok(_) => RunSets(runs[1..], done + [report])
  }

  /** Reports whose totals are all positive merge into a positive run-wide total. */
  lemma {:induction false} PositiveRunTotal(done: seq<SetReport>)
    requires |done| > 0
    requires forall i :: 0 <= i < |done| ==> Total(done[i].buckets) > 0
    ensures Total(Merge(BucketsOf(done))) > 0
  {
    var n := |done| - 1;
    BucketsOfSnoc(done[..n], done[n]);
    assert done[..n] + [done[n]] == done;
    MergeSnoc(BucketsOf(done[..n]), done[n].buckets);
    UnionCounts(Merge(BucketsOf(done[..n])), done[n].buckets);
  }

  lemma MergeSnoc(bs: seq<Buckets<char>>, b: Buckets<char>)
    ensures Merge(bs + [b]) == Union(Merge(bs), b)
  {
    assert (bs + [b])[..|bs|] == bs;
  }

  /**
   * The reports are those of the sets before the first one that does not
   * pass, in order, and each of those sets passed.
   */
  lemma {:induction false} RunReportsPrefix(runs: seq<SetRun>, done: seq<SetReport>)
    ensures var o := RunSets(runs, done);
            var m := |o.reports| - |done|;
            && 0 <= m <= |runs|
            && (forall i :: 0 <= i < |done| ==> o.reports[i] == done[i])
            && (forall i :: 0 <= i < m ==> Passes(runs[i]) && o.reports[|done| + i] == runs[i].report)
            && (m < |runs| ==> !Passes(runs[m]))
    decreases |runs|
  {
    if |runs| > 0 && Passes(runs[0]) {
      var done' := done + [runs[0].report];
      RunReportsPrefix(runs[1..], done');
      var o := RunSets(runs, done);
      assert o == RunSets(runs[1..], done');
      var m := |o.reports| - |done|;
      forall i | 0 <= i < |done| ensures o.reports[i] == done[i] {
        assert done'[i] == done[i];
      }
      forall i | 0 <= i < m ensures Passes(runs[i]) && o.reports[|done| + i] == runs[i].report {
        if i > 0 {
          assert runs[1..][i - 1] == runs[i];
          assert o.reports[|done'| + (i - 1)] == runs[1..][i - 1].report;
        } else {
          assert done'[|done|] == runs[0].report;
        }
      }
      if m < |runs| {
        assert runs[1..][m - 1] == runs[m];
      }
    } else {
      assert RunSets(runs, done).reports == done;
    }
  }

  /** The run completes exactly when every set passes and there was at least one set. */
  lemma {:induction false} RunCompletes(runs: seq<SetRun>, done: seq<SetReport>)
    requires forall i :: 0 <= i < |done| ==> Total(done[i].buckets) > 0
    ensures RunSets(runs, done).Completed? <==>
      (forall i :: 0 <= i < |runs| ==> Passes(runs[i])) && (|runs| > 0 || |done| > 0)
    decreases |runs|
  {
    if |runs| == 0 {
      if |done| > 0 {
        PositiveRunTotal(done);
      }
    } else if Passes(runs[0]) {
      var done' := done + [runs[0].report];
      RunCompletes(runs[1..], done');
      if forall i :: 0 <= i < |runs[1..]| ==> Passes(runs[1..][i]) {
        forall i | 0 <= i < |runs| ensures Passes(runs[i]) {
          if i > 0 { assert runs[1..][i - 1] == runs[i]; }
        }
      } else {
        var j :| 0 <= j < |runs[1..]| && !Passes(runs[1..][j]);
        assert runs[j + 1] == runs[1..][j];
      }
    }
  }

  /** A completed run reports every set, and its run-wide buckets merge them in set order. */
  lemma {:induction false} RunCompletedMerges(runs: seq<SetRun>, done: seq<SetReport>)
    ensures var o := RunSets(runs, done);
            o.Completed? ==> |o.reports| == |done| + |runs| && o.acc == Merge(BucketsOf(o.reports))
    decreases |runs|
  {
    if |runs| > 0 && Passes(runs[0]) {
      RunCompletedMerges(runs[1..], done + [runs[0].report]);
    }
  }

  /**
   * How a run that does not complete ends: in the first set that does not
   * pass, whose loop never ends, which raises the error reported, or which
   * has a zero total;
   * a run over no set at all has a zero total.
   */
  lemma {:induction false} RunStopsAt(runs: seq<SetRun>, done: seq<SetReport>)
    requires forall i :: 0 <= i < |done| ==> Total(done[i].buckets) > 0
    ensures var o := RunSets(runs, done);
            var m := |o.reports| - |done|;
            && (o.Endless? <==> m < |runs| && runs[m].Hangs?)
            && (o.Aborted? && m < |runs| ==>
                  && runs[m].Ran? && o.partial == runs[m].report.records
                  && o.error == (if runs[m].error.Some? then runs[m].error.value else ZeroDivision(runs[m].report.name)))
            && (o.Aborted? && m == |runs| ==> o.error == ZeroDivision("run") && |done| + m == 0)
    decreases |runs|
  {
    if |runs| == 0 {
      if |done| > 0 {
        PositiveRunTotal(done);
      }
    } else if Passes(runs[0]) {
      var done' := done + [runs[0].report];
      RunStopsAt(runs[1..], done');
      var o := RunSets(runs, done);
      var m := |o.reports| - |done|;
      RunReportsPrefix(runs[1..], done');
      if m < |runs| {
        assert runs[1..][m - 1] == runs[m];
      }
    }
  }

  /**
   * `unit_test(args, testsets, config, exec_p)`. The run completes exactly
   * when there is at least one set and every set stops, raises nothing, has
   * no case its predicate rejects and has a non-empty case name. The reports
   * are those of the first sets, in order, each of which passed; a completed
   * run reports every set and merges their buckets in set order. A run that
   * does not complete ends in the first set that does not pass: it hangs
   * there when that set never stops and no case it generates is rejected by
   * its predicate, and otherwise aborts with the cases
   * judged there and the set's own error or the division by its zero total;
   * a run over no set divides by zero at the end.
   */
  ghost function UnitTest(sets: seq<TestSet>, exec: string -> Run, timeout: real): (o: RunOutcome)
    requires forall i :: 0 <= i < |sets| ==> Valid(sets[i])
    ensures o.Completed? <==> |sets| > 0 && AllSetsPass(sets, exec)
    ensures |o.reports| <= |sets|
    ensures forall i :: 0 <= i < |o.reports| ==> SetPasses(sets[i], exec) && o.reports[i] == Play(sets[i], exec, timeout).report
    ensures o.Completed? ==> |o.reports| == |sets| && o.acc == Merge(BucketsOf(o.reports))
    ensures o.Endless? <==> |o.reports| < |sets| && NeverEnds(sets[|o.reports|], exec)
    ensures o.Aborted? && |o.reports| < |sets| ==>
      var s := PlayAll(sets, exec, timeout)[|o.reports|];
      && s.Ran? && o.partial == s.report.records
      && o.error == (if s.error.Some? then s.error.value else ZeroDivision(Name(sets[|o.reports|])))
    ensures o.Aborted? && |o.reports| == |sets| ==> |sets| == 0 && o == Aborted(ZeroDivision("run"), [], [])
  {
    PlayedRunReports(sets, exec, timeout);
    PlayedRunStops(sets, PlayAll(sets, exec, timeout), exec);
    RunSets(PlayAll(sets, exec, timeout), [])
  }

  /** The reports of `UnitTest` and when it completes, for the outer loop over the played sets. */
  lemma PlayedRunReports(sets: seq<TestSet>, exec: string -> Run, timeout: real)
    requires forall i :: 0 <= i < |sets| ==> Valid(sets[i])
    ensures var o := RunSets(PlayAll(sets, exec, timeout), []);
      && (o.Completed? <==> |sets| > 0 && AllSetsPass(sets, exec))
      && |o.reports| <= |sets|
      && (forall i :: 0 <= i < |o.reports| ==> SetPasses(sets[i], exec) && o.reports[i] == Play(sets[i], exec, timeout).report)
      && (o.Completed? ==> |o.reports| == |sets| && o.acc == Merge(BucketsOf(o.reports)))
  {
    var runs := PlayAll(sets, exec, timeout);
    var o := RunSets(runs, []);
    if |sets| == 0 {
      assert o == Aborted(ZeroDivision("run"), [], []);
    } else {
      RunShape(runs);
      PlayAllPasses(sets, exec, timeout);
      assert ReportsOfFirst(o.reports, runs);
      forall i | 0 <= i < |o.reports| ensures SetPasses(sets[i], exec) && o.reports[i] == Play(sets[i], exec, timeout).report {
        assert Passes(runs[i]) && o.reports[i] == runs[i].report;
      }
      assert AllPass(runs) <==> AllSetsPass(sets, exec);
    }
  }

  /**
   * How `UnitTest` stops when it does not complete, for the outer loop over
   * runs that hang exactly where the loop over the set never ends and carry
   * the sets' names.
   */
  lemma PlayedRunStops(sets: seq<TestSet>, runs: seq<SetRun>, exec: string -> Run)
    requires |runs| == |sets|
    requires forall i :: 0 <= i < |sets| ==> (runs[i].Hangs? <==> NeverEnds(sets[i], exec))
    requires forall i :: 0 <= i < |sets| ==> runs[i].Ran? ==> runs[i].report.name == Name(sets[i])
    ensures var o := RunSets(runs, []);
      && (o.Endless? <==> |o.reports| < |sets| && NeverEnds(sets[|o.reports|], exec))
      && (o.Aborted? && |o.reports| < |sets| ==>
            && runs[|o.reports|].Ran? && o.partial == runs[|o.reports|].report.records
            && o.error == (if runs[|o.reports|].error.Some? then runs[|o.reports|].error.value
                           else ZeroDivision(Name(sets[|o.reports|]))))
      && (o.Aborted? && |o.reports| == |sets| ==> |sets| == 0 && o == Aborted(ZeroDivision("run"), [], []))
  {
    RunReportsPrefix(runs, []);
    RunStopsAt(runs, []);
  }

  /** A set played by `PlayAll` passes exactly when it passes in the source's terms. */
  lemma PlayAllPasses(sets: seq<TestSet>, exec: string -> Run, timeout: real)
    requires forall i :: 0 <= i < |sets| ==> Valid(sets[i])
    ensures forall i :: 0 <= i < |sets| ==> (Passes(PlayAll(sets, exec, timeout)[i]) <==> SetPasses(sets[i], exec))
  {
    forall i | 0 <= i < |sets| ensures Passes(PlayAll(sets, exec, timeout)[i]) <==> SetPasses(sets[i], exec) {
      PlayPasses(sets[i], exec, timeout);
    }
  }

  /** Every set passes. */
  predicate AllPass(runs: seq<SetRun>) {
    forall i :: 0 <= i < |runs| ==> Passes(runs[i])
  }

  /** The reports are those of the first sets, in order, each of which passed. */
  predicate ReportsOfFirst(reports: seq<SetReport>, runs: seq<SetRun>) {
    |reports| <= |runs| && forall i :: 0 <= i < |reports| ==> Passes(runs[i]) && reports[i] == runs[i].report
  }

  /** Every set passes in the source's terms. */
  predicate AllSetsPass(sets: seq<TestSet>, exec: string -> Run)
    requires forall i :: 0 <= i < |sets| ==> Valid(sets[i])
  {
    forall i :: 0 <= i < |sets| ==> SetPasses(sets[i], exec)
  }

  /**
   * In match mode the predicate branch is never taken, so the `KeyError`
   * cannot happen: a pseudo-label set is played to the end of what it
   * yields, and ends with its own error, if any.
   */
  lemma MatchModeNeverRejects(t: TestSet, exec: string -> Run, timeout: real)
    requires Valid(t) && Finite(t) && t.Pseudo?
    ensures NoneRejected(Drain(t).cases, exec)
    ensures Play(t, exec, timeout).error == Drain(t).error
    ensures |Play(t, exec, timeout).report.records| == |Drain(t).cases|
  {
    var cs := Drain(t).cases;
    PseudoCasesExact(t);
    assert NoneRejected(cs, exec);
    assert FirstRejected(cs, exec, 0) == |cs|;
  }

  /**
   * The first case of a one-set run rejected by its predicate aborts the run
   * with `KeyError` before `post_testset`, with that case judged and nothing
   * reported.
   */
  lemma PredicateRejectionAborts(g: nat -> TestCase, exec: string -> Run, timeout: real)
    requires g(1).verifier.Pred? && Rejected(g(1), exec)
    ensures UnitTest([NewRandom(g, 1)], exec, timeout)
         == Aborted(MissingResult(g(1).name), [], [Judge(g(1), exec, timeout)])
  {
    var t := NewRandom(g, 1);
    DrainRandom("Random", g, 0, 1);
    PlayStopsAtRejection(t, exec, timeout, 0);
    var s := Play(t, exec, timeout);
    assert s.Ran? && s.error == Some(MissingResult(g(1).name));
    assert s.report.records == [Judge(g(1), exec, timeout)];
    assert PlayAll([t], exec, timeout) == [s];
    assert RunSets([s], []) == Aborted(MissingResult(g(1).name), [], s.report.records);
  }

  /**
   * A random set built with a negative count never stops, but when its
   * first case is rejected by its predicate the run still aborts with
   * `KeyError` right after judging that case.
   */
  lemma NegativeCountRejectionAborts(g: nat -> TestCase, exec: string -> Run, timeout: real)
    requires Rejected(g(1), exec)
    ensures UnitTest([NewRandom(g, -1)], exec, timeout)
         == Aborted(MissingResult(g(1).name), [], [Judge(g(1), exec, timeout)])
  {
    var t := NewRandom(g, -1);
    assert t.cnt < 1 && Rejected(t.generate(1), exec);
    assert RejectsSomeDraw(t, exec);
    var s := Play(t, exec, timeout);
    assert s.Ran? && StopsAtFirstRejectedDraw(s, g, 0, exec, timeout);
    var k := |s.report.records|;
    assert k == 1;
    assert s.report.records[0] == Judge(g(1), exec, timeout);
    assert s.report.records == [Judge(g(1), exec, timeout)];
    assert s.error == Some(MissingResult(g(1).name));
    assert PlayAll([t], exec, timeout) == [s];
    assert RunSets([s], []) == Aborted(MissingResult(g(1).name), [], s.report.records);
  }

  /**
   * A random set built with a negative count none of whose cases is
   * rejected keeps the loop over it going for ever: the run never ends.
   */
  lemma NegativeCountHangs(g: nat -> TestCase, exec: string -> Run, timeout: real)
    requires forall c: nat :: 0 < c ==> !Rejected(g(c), exec)
    ensures UnitTest([NewRandom(g, -1)], exec, timeout) == Endless([])
  {
    var t := NewRandom(g, -1);
    assert !RejectsSomeDraw(t, exec);
    var s := Play(t, exec, timeout);
    assert s.Hangs?;
    assert PlayAll([t], exec, timeout) == [s];
  }

  lemma RunShape(runs: seq<SetRun>)
    requires |runs| > 0
    ensures var o := RunSets(runs, []);
            && (o.Completed? <==> AllPass(runs))
            && ReportsOfFirst(o.reports, runs)
            && (o.Completed? ==> |o.reports| == |runs| && o.acc == Merge(BucketsOf(o.reports)))
  {
    RunReportsPrefix(runs, []);
    RunCompletes(runs, []);
    RunCompletedMerges(runs, []);
  }

  /**
   * `match_test`'s wrapping: every set becomes a `PseudoLabelTestset` over
   * the peer's executable; the first negative length stops it.
   */
  function WrapAll(sets: seq<TestSet>, reference: string -> RefRun): (r: Result<seq<TestSet>, Fatal>)
    requires forall i :: 0 <= i < |sets| ==> Valid(sets[i])
    ensures r.Err? <==> exists i :: 0 <= i < |sets| && Length(sets[i]) < 0
    ensures r.Err? ==> r.error == NegativeLength
    ensures r.Ok? ==> |r.value| == |sets|
    ensures r.Ok? ==> forall i :: 0 <= i < |sets| ==> r.value[i] == NewPseudo(sets[i], reference).value
    ensures r.Ok? ==> forall i :: 0 <= i < |sets| ==> Valid(r.value[i]) && Finite(r.value[i])
  {
    if |sets| == 0 then Ok([])
    else
      match NewPseudo(sets[0], reference)
      case Err(e) => Err(e)
      case Ok(p) =>
        match WrapAll(sets[1..], reference)
        case Err(e) => Err(e)
        case Ok(ps) => Ok([p] + ps)
  }

  /** The command-line options the core reads: `-r`, `-R`, and the peer executable `-m` selects. */
  datatype Options = Options(random: Option<int>, bigRandom: Option<int>, peer: Option<string -> RefRun>)

  /**
   * `get_testsets` followed, in match mode, by `match_test`'s wrapping: the
   * sets `unit_test` receives, or the error raised while building them.
   */
  function Prepare(opts: Options, files: seq<InFile>, spec: SpecModule): (r: Result<seq<TestSet>, Fatal>)
    ensures r.Ok? ==> forall i :: 0 <= i < |r.value| ==> Valid(r.value[i])
    ensures r.Ok? ==> 1 <= |r.value| <= 2
    ensures r.Ok? && opts.peer.Some? ==> forall i :: 0 <= i < |r.value| ==> r.value[i].Pseudo? && Finite(r.value[i])
    ensures r.Err? && opts.peer.None? ==> r.error == NoRandomTestSet
    ensures r.Err? ==> r.error == NoRandomTestSet || (opts.peer.Some? && r.error == NegativeLength)
    ensures opts.peer.None? ==> r == BuildSets(Choose(opts.random, opts.bigRandom), files, spec)
    ensures opts.peer.Some? && BuildSets(Choose(opts.random, opts.bigRandom), files, spec).Ok? ==>
      r == WrapAll(BuildSets(Choose(opts.random, opts.bigRandom), files, spec).value, opts.peer.value)
  {
    var choice := Choose(opts.random, opts.bigRandom);
    ChoiceShape(opts.random, opts.bigRandom);
    var sets :- BuildSets(choice, files, spec);
    match opts.peer
    case None => Ok(sets)
    case Some(reference) => WrapAll(sets, reference)
  }

  /**
   * `perform()` once the specification is loaded and the paths resolved:
   * prepare the sets and run them with the specification's timeout.
   */
  ghost function Perform(opts: Options, files: seq<InFile>, spec: SpecModule, exec: string -> Run): (o: RunOutcome)
    ensures o.Completed? ==> Prepare(opts, files, spec).Ok?
    ensures Prepare(opts, files, spec).Err? ==> o == Aborted(Prepare(opts, files, spec).error, [], [])
    ensures Prepare(opts, files, spec).Ok? ==> o == UnitTest(Prepare(opts, files, spec).value, exec, spec.config.timeout)
    ensures o.Completed? <==> Prepare(opts, files, spec).Ok? && AllSetsPass(Prepare(opts, files, spec).value, exec)
  {
    match Prepare(opts, files, spec)
    case Err(e) => Aborted(e, [], [])
    case Ok(sets) => UnitTest(sets, exec, spec.config.timeout)
  }
}

=== FILE: results.dfy ===
/** Failure-compatible wrappers shared by the whole model. */
module Results {

  /** An optional value: a Python value that may be `None`. */
  datatype Option<+T> = None | Some(value: T)

  /** Either a value or the exception the Python code would raise instead. */
  datatype Result<+T, +E> = Ok(value: T) | Err(error: E) {

    predicate IsFailure() {
      Err?
    }

    function PropagateFailure<U>(): Result<U, E>
      requires Err?
    {
      Err(error)
    }

    function Extract(): T
      requires Ok?
    {
      value
    }
  }
}

=== FILE: selection.dfy ===
/**
 * `Test.get_testsets`: which test sets a run uses, decided by the `-r NUM`
 * and `-R NUM` options, and the construction of those sets.
 */
module Selection {
  import opened Results
  import opened Harness
  import opened TestSets

  datatype Kind = DefaultKind | RandomKind

  /** The list `testset_opt` and the `case_num` that goes with it. */
  datatype Choice = Choice(kinds: seq<Kind>, caseNum: int)

  /** Python truthiness of an `int` option: absent (`None`) and `0` are both false. */
  predicate Given(opt: Option<int>) {
    opt.Some? && opt.value != 0
  }

  /** The option-to-sets decision of `get_testsets`; `-R` is tested before `-r`. */
  function Choose(random: Option<int>, bigRandom: Option<int>): (c: Choice)
    ensures !Given(random) && !Given(bigRandom) ==> c == Choice([DefaultKind], 5)
    ensures Given(bigRandom) ==> c == Choice([DefaultKind, RandomKind], bigRandom.value)
    ensures !Given(bigRandom) && Given(random) ==> c == Choice([RandomKind], random.value)
  {
    if !Given(random) && !Given(bigRandom) then Choice([DefaultKind], 5)
    else if Given(bigRandom) then Choice([DefaultKind, RandomKind], bigRandom.value)
    else Choice([RandomKind], random.value)
  }

  /**
   * Every choice is non-empty, lists each kind at most once, puts the default
   * set before the random one, and includes the default set exactly when
   * `-r` is not the only option given.
   */
  lemma ChoiceShape(random: Option<int>, bigRandom: Option<int>)
    ensures var ks := Choose(random, bigRandom).kinds;
            && 1 <= |ks| <= 2
            && (forall i, j :: 0 <= i < j < |ks| ==> ks[i] == DefaultKind && ks[j] == RandomKind)
            && (DefaultKind in ks <==> Given(bigRandom) || !Given(random))
            && (RandomKind in ks <==> Given(bigRandom) || Given(random))
  {
  }

  /** Both options given: `-R` wins, and its count is used. */
  lemma BigRandomWins(r: int, bigR: int)
    requires r != 0 && bigR != 0
    ensures Choose(Some(r), Some(bigR)) == Choose(None, Some(bigR))
    ensures Choose(Some(r), Some(bigR)).caseNum == bigR
  {
  }

  /**
   * What the harness takes from a problem's `spec.py`: `get_config()` and,
   * when the module defines a `RandomTestSet` class, its `generate` method
   * (every such class in the repository inherits the rest from
   * `RandomTestSetBase`), seeing the incremented counter.
   */
  datatype SpecModule = SpecModule(config: Config, generate: Option<nat -> TestCase>)

  /**
   * The list `get_testsets` returns: the default set over the listing, then
   * `spec.RandomTestSet(…, case_num)`; asking for a random set from a
   * specification without that class is an `AttributeError`.
   */
  function BuildSets(c: Choice, files: seq<InFile>, spec: SpecModule): (r: Result<seq<TestSet>, Fatal>)
    ensures r.Err? <==> RandomKind in c.kinds && spec.generate.None?
    ensures r.Err? ==> r.error == NoRandomTestSet
    ensures r.Ok? ==> |r.value| == (if DefaultKind in c.kinds then 1 else 0) + (if RandomKind in c.kinds then 1 else 0)
    ensures r.Ok? && DefaultKind in c.kinds ==> r.value[0] == NewDefault(files)
    ensures r.Ok? && RandomKind in c.kinds ==> r.value[|r.value| - 1] == NewRandom(spec.generate.value, c.caseNum)
    ensures r.Ok? ==> forall i :: 0 <= i < |r.value| ==> Valid(r.value[i])
  {
    var defaults := if DefaultKind in c.kinds then [NewDefault(files)] else [];
    if RandomKind !in c.kinds then Ok(defaults)
    else match spec.generate
      case None => Err(NoRandomTestSet)
      case Some(g) => Ok(defaults + [NewRandom(g, c.caseNum)])
  }
}

=== FILE: stable_matching.dfy ===
/**
 * `lab01/test/a/spec.py`: a verifier for a stable matching. It reads an
 * instance (a count `N`, `N` boys, `N` girls, then every boy's and every
 * girl's preference list of `N` names) from the case input, reads `N`
 * `(boy, girl)` pairs from the program output, and rejects the output as
 * soon as it finds a blocking pair: a boy and a girl who each rank the other
 * above their assigned partner.
 *
 * The `StrReader` the file imports is not defined in test.py; it is modelled
 * here as reading the whitespace-separated tokens of its text one by one,
 * running out of input being an error. Every exception the verifier can
 * raise is an `Err`.
 */
module StableMatching {
  import opened Results
  import opened Strings
  import opened Harness

  /** `get_config()`: a one-second timeout. */
  function GetConfig(): Config {
    Config(1.0)
  }

  /** A case of this problem that times out is reported with a duration of one second. */
  lemma TimeoutIsOneSecond(v: Verifier)
    ensures Classify(TimedOut, v, GetConfig().timeout) == Outcome(TimeLimitExcess, 1.0)
  {
  }

  /** What reading or checking can raise. */
  datatype Error =
    | EndOfInput                // `sr.read()` past the last token
    | NotAnInteger(token: string) // `int(...)` on the first token
    | KeyError(key: string)     // `bg[boy]` or `gb[girl]` for a name the output never assigned
    | ValueError(item: string)  // `list.index(item)` for a name missing from a preference list

  // ---------------------------------------------------------------------------
  // Reading the instance

  /** `len(range(n))`: a count of zero or below reads nothing. */
  function Times(n: int): (k: nat)
    ensures n <= 0 ==> k == 0
    ensures n > 0 ==> k == n
  {
    if n <= 0 then 0 else n
  }

  /** `int(sr.read())` for the first token. */
  function ReadCount(ts: seq<string>): (r: Result<int, Error>)
    ensures |ts| == 0 ==> r == Err(EndOfInput)
    ensures |ts| > 0 ==> (r.Ok? <==> ParseInt(ts[0]).Some?)
    ensures |ts| > 0 && r.Ok? ==> r.value == ParseInt(ts[0]).value
    ensures |ts| > 0 && r.Err? ==> r.error == NotAnInteger(ts[0])
  {
    if |ts| == 0 then Err(EndOfInput)
    else match ParseInt(ts[0])
      case None => Err(NotAnInteger(ts[0]))
      case Some(n) => Ok(n)
  }

  /** An instance as read: the names in input order and one preference list per name. */
  datatype Instance = Instance(boys: seq<string>, girls: seq<string>, boyLists: seq<seq<string>>, girlLists: seq<seq<string>>)

  /** `N` boys, `N` girls, and `N` lists of `N` names for each of them. */
  predicate WellShaped(inst: Instance) {
    var n := |inst.boys|;
    && |inst.girls| == n && |inst.boyLists| == n && |inst.girlLists| == n
    && (forall i :: 0 <= i < n ==> |inst.boyLists[i]| == n)
    && (forall i :: 0 <= i < n ==> |inst.girlLists[i]| == n)
  }

  /** `count` consecutive runs of `n` tokens. */
  function Chunks(ws: seq<string>, count: nat, n: nat): (r: seq<seq<string>>)
    requires |ws| == count * n
    ensures |r| == count
    ensures forall i :: 0 <= i < count ==> |r[i]| == n
    decreases count
  {
    if count == 0 then []
    else
      LessOneRun(count, n);
      [ws[..n]] + Chunks(ws[n..], count - 1, n)
  }

  lemma LessOneRun(count: nat, n: nat)
    requires count > 0
    ensures n <= count * n && count * n - n == (count - 1) * n
  {
  }

  /** The lists written one after the other. */
  function Flatten(ls: seq<seq<string>>): seq<string> {
    if |ls| == 0 then [] else ls[0] + Flatten(ls[1..])
  }

  /** Cutting the flattened lists back into runs of their common length gives the lists. */
  lemma {:induction false} ChunksFlatten(ls: seq<seq<string>>, n: nat)
    requires forall i :: 0 <= i < |ls| ==> |ls[i]| == n
    ensures |Flatten(ls)| == |ls| * n
    ensures Chunks(Flatten(ls), |ls|, n) == ls
  {
    if |ls| > 0 {
      var tail := ls[1..];
      ChunksFlatten(tail, n);
      LessOneRun(|ls|, n);
      var f := Flatten(ls);
      assert f == ls[0] + Flatten(tail);
      assert |f| == |ls| * n;
      assert f[..n] == ls[0];
      assert f[n..] == Flatten(tail);
      assert Chunks(f, |ls|, n) == [ls[0]] + Chunks(Flatten(tail), |tail|, n);
      assert [ls[0]] + tail == ls;
    }
  }

  /** Flattening the runs gives the tokens back. */
  lemma {:induction false} FlattenChunks(ws: seq<string>, count: nat, n: nat)
    requires |ws| == count * n
    ensures Flatten(Chunks(ws, count, n)) == ws
    decreases count
  {
    if count > 0 {
      LessOneRun(count, n);
      var rest := ws[n..];
      FlattenChunks(rest, count - 1, n);
      var r := Chunks(ws, count, n);
      assert r == [ws[..n]] + Chunks(rest, count - 1, n);
      assert r[1..] == Chunks(rest, count - 1, n);
      assert ws[..n] + rest == ws;
    }
  }

  /**
   * The first half of the verifier: the count, the boys, the girls, each
   * boy's list and then each girl's list, every read past the end of the
   * tokens an error. Tokens left over are ignored.
   */
  function ParseInstance(ts: seq<string>): (r: Result<Instance, Error>)
    ensures r.Ok? <==> ReadCount(ts).Ok? && |ts| >= Needed(Times(ReadCount(ts).value))
    ensures ReadCount(ts).Err? ==> r == Err(ReadCount(ts).error)
    ensures ReadCount(ts).Ok? && r.Err? ==> r.error == EndOfInput
    ensures r.Ok? ==> WellShaped(r.value) && |r.value.boys| == Times(ReadCount(ts).value)
  {
    var n :- ReadCount(ts);
    var k := Times(n);
    if |ts| < Needed(k) then Err(EndOfInput)
    else
      var lists := 1 + 2 * k;
      var kk := k * k;
      Ok(Instance(ts[1..1 + k], ts[1 + k..lists],
                  Chunks(ts[lists..lists + kk], k, k),
                  Chunks(ts[lists + kk..lists + 2 * kk], k, k)))
  }

  /** How many tokens an instance of `k` boys and `k` girls takes: the count, the names, the lists. */
  function Needed(k: nat): nat {
    1 + 2 * k + 2 * (k * k)
  }

  /** The tokens of an input file that describes `inst`, in the order the verifier reads them. */
  function RenderInstance(inst: Instance): seq<string> {
    [NatToString(|inst.boys|)] + inst.boys + inst.girls + Flatten(inst.boyLists) + Flatten(inst.girlLists)
  }

  /** Reading an instance back from its rendering gives the instance. */
  lemma ParseRenderedInstance(inst: Instance)
    requires WellShaped(inst)
    ensures ParseInstance(RenderInstance(inst)) == Ok(inst)
  {
    var k := |inst.boys|;
    var ts := RenderInstance(inst);
    ParseNatToString(k);
    ChunksFlatten(inst.boyLists, k);
    ChunksFlatten(inst.girlLists, k);
    var fb, fg := Flatten(inst.boyLists), Flatten(inst.girlLists);
    var lists := 1 + 2 * k;
    assert ts[0] == NatToString(k);
    assert ts[1..1 + k] == inst.boys;
    assert ts[1 + k..lists] == inst.girls;
    assert ts[lists..lists + k * k] == fb;
    assert ts[lists + k * k..lists + 2 * (k * k)] == fg;
  }

  // ---------------------------------------------------------------------------
  // Dictionaries

  /** The set of names in a sequence. */
  function Names(xs: seq<string>): set<string> {
    set i | 0 <= i < |xs| :: xs[i]
  }

  /**
   * A dict filled by `d[ks[i]] = vs[i]` for `i` in order: a later entry for
   * the same key wins, so the first entry counts only when the key does not
   * come again.
   */
  function LastWins<V>(ks: seq<string>, vs: seq<V>): (m: map<string, V>)
    requires |ks| == |vs|
    ensures m.Keys == Names(ks)
    ensures forall i :: 0 <= i < |ks| && (forall j :: i < j < |ks| ==> ks[j] != ks[i]) ==> m[ks[i]] == vs[i]
  {
    if |ks| == 0 then map[]
    else
      var rest := LastWins(ks[1..], vs[1..]);
      NamesCons(ks);
      var m := if ks[0] in rest then rest else rest[ks[0] := vs[0]];
      LastWinsCons(ks, vs, rest, m);
      m
  }
  lemma NamesCons(ks: seq<string>)
    requires |ks| > 0
    ensures Names(ks) == {ks[0]} + Names(ks[1..])
  {
    forall x | x in Names(ks) ensures x in {ks[0]} + Names(ks[1..]) {
      var i :| 0 <= i < |ks| && ks[i] == x;
      if i > 0 { assert ks[1..][i - 1] == x; }
    }
    forall x | x in Names(ks[1..]) ensures x in Names(ks) {
      var i :| 0 <= i < |ks| - 1 && ks[1..][i] == x;
      assert ks[i + 1] == x;
    }
  }
  lemma LastWinsCons<V>(ks: seq<string>, vs: seq<V>, rest: map<string, V>, m: map<string, V>)
    requires |ks| == |vs| && |ks| > 0 && rest.Keys == Names(ks[1..])
    requires forall i :: 0 <= i < |ks| - 1 && (forall j :: i < j < |ks| - 1 ==> ks[1..][j] != ks[1..][i]) ==> rest[ks[1..][i]] == vs[1..][i]
    requires m == if ks[0] in rest then rest else rest[ks[0] := vs[0]]
    requires m.Keys == Names(ks)
    ensures forall i :: 0 <= i < |ks| && (forall j :: i < j < |ks| ==> ks[j] != ks[i]) ==> m[ks[i]] == vs[i]
  {
    forall i | 0 <= i < |ks| && (forall j :: i < j < |ks| ==> ks[j] != ks[i]) ensures m[ks[i]] == vs[i] {
      if i > 0 {
        assert ks[1..][i - 1] == ks[i] && vs[1..][i - 1] == vs[i];
        assert forall j :: i - 1 < j < |ks| - 1 ==> ks[1..][j] == ks[j + 1];
        assert ks[i] in Names(ks[1..]);
      } else {
        forall x | x in Names(ks[1..]) ensures x != ks[0] {
          var j :| 0 <= j < |ks| - 1 && ks[1..][j] == x;
          assert ks[j + 1] == x;
        }
      }
    }
  }

  /** `boy_pref`: each boy's list under his name. */
  function BoyPref(inst: Instance): map<string, seq<string>>
    requires WellShaped(inst)
  {
    LastWins(inst.boys, inst.boyLists)
  }

  /** `girl_pref`: each girl's list under her name. */
  function GirlPref(inst: Instance): map<string, seq<string>>
    requires WellShaped(inst)
  {
    LastWins(inst.girls, inst.girlLists)
  }

  // ---------------------------------------------------------------------------
  // Reading the matching

  datatype Pair = Pair(boy: string, girl: string)

  /** The second half of the reading: `k` pairs of tokens, boy first. */
  function ParsePairs(ts: seq<string>, k: nat): (r: Result<seq<Pair>, Error>)
    ensures r.Ok? <==> |ts| >= 2 * k
    ensures r.Err? ==> r.error == EndOfInput
    ensures r.Ok? ==> |r.value| == k
    ensures r.Ok? ==> forall i :: 0 <= i < k ==> r.value[i] == Pair(ts[2 * i], ts[2 * i + 1])
    decreases k
  {
    if k == 0 then Ok([])
    else if |ts| < 2 then Err(EndOfInput)
    else
      match ParsePairs(ts[2..], k - 1)
      case Err(e) => Err(e)
      case Ok(ps) => Ok([Pair(ts[0], ts[1])] + ps)
  }

  /** The tokens of an output listing the pairs. */
  function RenderPairs(ps: seq<Pair>): seq<string> {
    if |ps| == 0 then [] else [ps[0].boy, ps[0].girl] + RenderPairs(ps[1..])
  }

  /** Reading the pairs back from their rendering gives the pairs. */
  lemma {:induction false} ParseRenderedPairs(ps: seq<Pair>)
    ensures |RenderPairs(ps)| == 2 * |ps|
    ensures ParsePairs(RenderPairs(ps), |ps|) == Ok(ps)
  {
    if |ps| > 0 {
      ParseRenderedPairs(ps[1..]);
      var ts := RenderPairs(ps);
      assert ts[2..] == RenderPairs(ps[1..]);
      assert [ps[0]] + ps[1..] == ps;
    }
  }

  function BoysOf(ps: seq<Pair>): (bs: seq<string>)
    ensures |bs| == |ps| && forall i :: 0 <= i < |ps| ==> bs[i] == ps[i].boy
  {
    seq(|ps|, i requires 0 <= i < |ps| => ps[i].boy)
  }

  function GirlsOf(ps: seq<Pair>): (gs: seq<string>)
    ensures |gs| == |ps| && forall i :: 0 <= i < |ps| ==> gs[i] == ps[i].girl
  {
    seq(|ps|, i requires 0 <= i < |ps| => ps[i].girl)
  }

  /** `bg`: each boy's assigned girl. */
  function Bg(ps: seq<Pair>): map<string, string> {
    LastWins(BoysOf(ps), GirlsOf(ps))
  }

  /** `gb`: each girl's assigned boy. */
  function Gb(ps: seq<Pair>): map<string, string> {
    LastWins(GirlsOf(ps), BoysOf(ps))
  }

  predicate Distinct(xs: seq<string>) {
    forall i, j :: 0 <= i < j < |xs| ==> xs[i] != xs[j]
  }

  /**
   * When no boy and no girl appears in two pairs, `bg` and `gb` are inverse
   * to each other and record exactly the pairs read.
   */
  lemma PairsRecordedBothWays(ps: seq<Pair>)
    requires Distinct(BoysOf(ps)) && Distinct(GirlsOf(ps))
    ensures forall i :: 0 <= i < |ps| ==> Bg(ps)[ps[i].boy] == ps[i].girl && Gb(ps)[ps[i].girl] == ps[i].boy
    ensures forall b :: b in Bg(ps) ==> Bg(ps)[b] in Gb(ps) && Gb(ps)[Bg(ps)[b]] == b
    ensures forall g :: g in Gb(ps) ==> Gb(ps)[g] in Bg(ps) && Bg(ps)[Gb(ps)[g]] == g
  {
    var bs, gs := BoysOf(ps), GirlsOf(ps);
    forall i | 0 <= i < |ps| ensures Bg(ps)[ps[i].boy] == ps[i].girl && Gb(ps)[ps[i].girl] == ps[i].boy {
      assert bs[i] == ps[i].boy && gs[i] == ps[i].girl;
    }
    forall b | b in Bg(ps) ensures Bg(ps)[b] in Gb(ps) && Gb(ps)[Bg(ps)[b]] == b {
      var i :| 0 <= i < |bs| && bs[i] == b;
      assert gs[i] in Names(gs);
    }
    forall g | g in Gb(ps) ensures Gb(ps)[g] in Bg(ps) && Bg(ps)[Gb(ps)[g]] == g {
      var i :| 0 <= i < |gs| && gs[i] == g;
      assert bs[i] in Names(bs);
    }
  }

  /** A name given twice wins with its last pair: boy `"a"` matched to `"x"`, then to `"y"`, ends with `"y"`. */
  lemma LaterPairWins()
    ensures Bg([Pair("a", "x"), Pair("a", "y")])["a"] == "y"
  {
    var ps := [Pair("a", "x"), Pair("a", "y")];
    assert BoysOf(ps)[1] == "a";
  }

  // ---------------------------------------------------------------------------
  // The blocking-pair check

  /** `xs.index(x)`: the first position of `x`, or `ValueError`. */
  function IndexOf(xs: seq<string>, x: string): (r: Result<nat, Error>)
    ensures r.Ok? <==> x in xs
    ensures r.Ok? ==> r.value < |xs| && xs[r.value] == x && forall j :: 0 <= j < r.value ==> xs[j] != x
    ensures r.Err? ==> r.error == ValueError(x)
  {
    if |xs| == 0 then Err(ValueError(x))
    else if xs[0] == x then Ok(0)
    else
      match IndexOf(xs[1..], x)
      case Err(e) => Err(e)
      case Ok(i) => Ok(i + 1)
  }

  /** `d[key]`, or `KeyError`. */
  function Lookup(m: map<string, string>, key: string): (r: Result<string, Error>)
    ensures r.Ok? <==> key in m
    ensures r.Ok? ==> r.value == m[key]
    ensures r.Err? ==> r.error == KeyError(key)
  {
    if key in m then Ok(m[key]) else Err(KeyError(key))
  }

  /** `a` is ranked above `b` in the list: it occurs, and no `b` occurs up to it; `b` occurs somewhere. */
  predicate Prefers(xs: seq<string>, a: string, b: string) {
    b in xs && exists i :: 0 <= i < |xs| && xs[i] == a && forall j :: 0 <= j <= i ==> xs[j] != b
  }

  /** Nobody is ranked above themselves. */
  lemma NotAboveItself(xs: seq<string>, a: string)
    ensures !Prefers(xs, a, a)
  {
  }

  /** Each of the two is assigned and ranks the other above the one assigned. */
  predicate Blocks(boyPref: map<string, seq<string>>, girlPref: map<string, seq<string>>,
                   bg: map<string, string>, gb: map<string, string>, boy: string, girl: string)
    requires boy in boyPref && girl in girlPref
  {
    && boy in bg && girl in gb
    && Prefers(boyPref[boy], girl, bg[boy])
    && Prefers(girlPref[girl], boy, gb[girl])
  }

  /** A boy and his own assigned girl never block: he does not rank her above herself. */
  lemma OwnPartnerNeverBlocks(boyPref: map<string, seq<string>>, girlPref: map<string, seq<string>>,
                              bg: map<string, string>, gb: map<string, string>, boy: string)
    requires boy in boyPref && boy in bg && bg[boy] in girlPref
    ensures !Blocks(boyPref, girlPref, bg, gb, boy, bg[boy])
  {
    NotAboveItself(boyPref[boy], bg[boy]);
  }

  /**
   * The condition of the inner loop, evaluated as Python does: the boy's
   * comparison first (`index(girl)`, then `bg[boy]`, then its `index`), and
   * the girl's side only when the boy's comparison holds.
   */
  function PairBlocks(boyPref: map<string, seq<string>>, girlPref: map<string, seq<string>>,
                      bg: map<string, string>, gb: map<string, string>, boy: string, girl: string): (r: Result<bool, Error>)
    requires boy in boyPref && girl in girlPref
  {
    var bp := boyPref[boy];
    var i :- IndexOf(bp, girl);
    var partner :- Lookup(bg, boy);
    var p :- IndexOf(bp, partner);
    if !(i < p) then Ok(false)
    else
      var gp := girlPref[girl];
      var j :- IndexOf(gp, boy);
      var husband :- Lookup(gb, girl);
      var h :- IndexOf(gp, husband);
      Ok(j < h)
  }

  lemma FirstIndexPrefers(xs: seq<string>, a: string, b: string, i: nat, p: nat)
    requires IndexOf(xs, a) == Ok(i) && IndexOf(xs, b) == Ok(p)
    ensures Prefers(xs, a, b) <==> i < p
  {
    if i < p {
      assert xs[i] == a && forall j :: 0 <= j <= i ==> xs[j] != b;
    } else {
      forall k | 0 <= k < |xs| && xs[k] == a ensures exists j :: 0 <= j <= k && xs[j] == b {
        assert k >= i;
        assert xs[p] == b;
      }
    }
  }

  /** A pair the check gets through is judged blocking exactly when it is one. */
  lemma PairBlocksMeansBlocking(boyPref: map<string, seq<string>>, girlPref: map<string, seq<string>>,
                                bg: map<string, string>, gb: map<string, string>, boy: string, girl: string)
    requires boy in boyPref && girl in girlPref
    ensures PairBlocks(boyPref, girlPref, bg, gb, boy, girl) == Ok(true) <==> Blocks(boyPref, girlPref, bg, gb, boy, girl)
    ensures PairBlocks(boyPref, girlPref, bg, gb, boy, girl) == Ok(false) ==> !Blocks(boyPref, girlPref, bg, gb, boy, girl)
  {
    var bp := boyPref[boy];
    var gp := girlPref[girl];
    if girl in bp && boy in bg && bg[boy] in bp {
      FirstIndexPrefers(bp, girl, bg[boy], IndexOf(bp, girl).value, IndexOf(bp, bg[boy]).value);
      if boy in gp && girl in gb && gb[girl] in gp {
        FirstIndexPrefers(gp, boy, gb[girl], IndexOf(gp, boy).value, IndexOf(gp, gb[girl]).value);
      }
    }
  }

  /** Every name and partner the check can look up is there. */
  predicate Complete(boyPref: map<string, seq<string>>, girlPref: map<string, seq<string>>,
                     bg: map<string, string>, gb: map<string, string>, boy: string, girl: string)
    requires boy in boyPref && girl in girlPref
  {
    && boy in bg && girl in gb
    && girl in boyPref[boy] && bg[boy] in boyPref[boy]
    && boy in girlPref[girl] && gb[girl] in girlPref[girl]
  }

  lemma CompletePairChecks(boyPref: map<string, seq<string>>, girlPref: map<string, seq<string>>,
                           bg: map<string, string>, gb: map<string, string>, boy: string, girl: string)
    requires boy in boyPref && girl in girlPref
    requires Complete(boyPref, girlPref, bg, gb, boy, girl)
    ensures PairBlocks(boyPref, girlPref, bg, gb, boy, girl).Ok?
  {
  }

  /** `for girl in girl_name:` for one boy: whether a blocking girl turns up, or what was raised first. */
  function ScanGirls(boyPref: map<string, seq<string>>, girlPref: map<string, seq<string>>,
                     bg: map<string, string>, gb: map<string, string>, boy: string, girls: seq<string>): (r: Result<bool, Error>)
    requires boy in boyPref && forall j :: 0 <= j < |girls| ==> girls[j] in girlPref
    ensures r == Ok(true) ==> exists j :: 0 <= j < |girls| && Blocks(boyPref, girlPref, bg, gb, boy, girls[j])
    ensures r == Ok(false) ==> forall j :: 0 <= j < |girls| ==> !Blocks(boyPref, girlPref, bg, gb, boy, girls[j])
    ensures (forall j :: 0 <= j < |girls| ==> Complete(boyPref, girlPref, bg, gb, boy, girls[j])) ==> r.Ok?
  {
    if |girls| == 0 then Ok(false)
    else
      PairBlocksMeansBlocking(boyPref, girlPref, bg, gb, boy, girls[0]);
      var here :- PairBlocks(boyPref, girlPref, bg, gb, boy, girls[0]);
      if here then Ok(true)
      else
        var rest := ScanGirls(boyPref, girlPref, bg, gb, boy, girls[1..]);
        if rest == Ok(true) then
          ghost var j :| 0 <= j < |girls[1..]| && Blocks(boyPref, girlPref, bg, gb, boy, girls[1..][j]);
          assert girls[j + 1] == girls[1..][j];
          rest
        else
          assert forall j :: 1 <= j < |girls| ==> girls[j] == girls[1..][j - 1];
          rest
  }

  /** `for boy in boy_name:` around the scan of the girls. */
  function ScanBoys(boyPref: map<string, seq<string>>, girlPref: map<string, seq<string>>,
                    bg: map<string, string>, gb: map<string, string>, boys: seq<string>, girls: seq<string>): (r: Result<bool, Error>)
    requires forall i :: 0 <= i < |boys| ==> boys[i] in boyPref
    requires forall j :: 0 <= j < |girls| ==> girls[j] in girlPref
    ensures r == Ok(true) ==>
      exists i, j :: 0 <= i < |boys| && 0 <= j < |girls| && Blocks(boyPref, girlPref, bg, gb, boys[i], girls[j])
    ensures r == Ok(false) ==>
      forall i, j :: 0 <= i < |boys| && 0 <= j < |girls| ==> !Blocks(boyPref, girlPref, bg, gb, boys[i], girls[j])
    ensures (forall i, j :: 0 <= i < |boys| && 0 <= j < |girls| ==> Complete(boyPref, girlPref, bg, gb, boys[i], girls[j])) ==> r.Ok?
  {
    if |boys| == 0 then Ok(false)
    else
      var here :- ScanGirls(boyPref, girlPref, bg, gb, boys[0], girls);
      if here then Ok(true)
      else
        var rest := ScanBoys(boyPref, girlPref, bg, gb, boys[1..], girls);
        if rest == Ok(true) then
          ghost var i, j :| 0 <= i < |boys[1..]| && 0 <= j < |girls| && Blocks(boyPref, girlPref, bg, gb, boys[1..][i], girls[j]);
          assert boys[i + 1] == boys[1..][i];
          rest
        else
          assert forall i :: 1 <= i < |boys| ==> boys[i] == boys[1..][i - 1];
          rest
  }

  /** No boy and girl of the instance block the matching. */
  predicate Stable(inst: Instance, ps: seq<Pair>)
    requires WellShaped(inst)
  {
    NamesKnown(inst) &&
    forall i, j :: 0 <= i < |inst.boys| && 0 <= j < |inst.girls| ==>
      !Blocks(BoyPref(inst), GirlPref(inst), Bg(ps), Gb(ps), inst.boys[i], inst.girls[j])
  }

  /** Every boy and girl of the instance has a list. */
  predicate NamesKnown(inst: Instance)
    requires WellShaped(inst)
  {
    && (forall i :: 0 <= i < |inst.boys| ==> inst.boys[i] in BoyPref(inst))
    && (forall j :: 0 <= j < |inst.girls| ==> inst.girls[j] in GirlPref(inst))
  }

  lemma AllNamesKnown(inst: Instance)
    requires WellShaped(inst)
    ensures NamesKnown(inst)
  {
    forall i | 0 <= i < |inst.boys| ensures inst.boys[i] in BoyPref(inst) {
      assert inst.boys[i] in Names(inst.boys);
    }
    forall j | 0 <= j < |inst.girls| ensures inst.girls[j] in GirlPref(inst) {
      assert inst.girls[j] in Names(inst.girls);
    }
  }

  /** Every lookup the check can make over the whole instance succeeds. */
  predicate AllComplete(inst: Instance, ps: seq<Pair>)
    requires WellShaped(inst) && NamesKnown(inst)
  {
    forall i, j :: 0 <= i < |inst.boys| && 0 <= j < |inst.girls| ==>
      Complete(BoyPref(inst), GirlPref(inst), Bg(ps), Gb(ps), inst.boys[i], inst.girls[j])
  }

  /**
   * `verifier(input, output)`: `Ok(true)` for `True`, `Ok(false)` for
   * `False`, `Err` for an exception. An input that is not an instance raises
   * what reading it raises; an output too short for the matching raises
   * `EndOfInput`; once both are read, the answer is whether the matching is
   * stable.
   */
  function Verify(input: string, output: string): (r: Result<bool, Error>)
    ensures ParseInstance(Tokens(input)).Err? ==> r == Err(ParseInstance(Tokens(input)).error)
    ensures ParseInstance(Tokens(input)).Ok? && |Tokens(output)| < 2 * |ParseInstance(Tokens(input)).value.boys| ==>
      r == Err(EndOfInput)
    ensures r.Ok? ==>
      && ParseInstance(Tokens(input)).Ok?
      && ParsePairs(Tokens(output), |ParseInstance(Tokens(input)).value.boys|).Ok?
      && (r.value <==> Stable(ParseInstance(Tokens(input)).value,
                              ParsePairs(Tokens(output), |ParseInstance(Tokens(input)).value.boys|).value))
  {
    var ts, us := Tokens(input), Tokens(output);
    if ParseInstance(ts).Ok? && ParsePairs(us, |ParseInstance(ts).value.boys|).Ok? then
      VerifyParsed(ts, us, ParseInstance(ts).value, ParsePairs(us, |ParseInstance(ts).value.boys|).value);
      VerifyTokens(ts, us)
    else
      VerifyTokens(ts, us)
  }

  /** The verifier on the tokens `StrReader` hands out. */
  function VerifyTokens(ts: seq<string>, us: seq<string>): (r: Result<bool, Error>)
    ensures ParseInstance(ts).Err? ==> r == Err(ParseInstance(ts).error)
    ensures ParseInstance(ts).Ok? && ParsePairs(us, |ParseInstance(ts).value.boys|).Err? ==> r == Err(EndOfInput)
  {
    var inst :- ParseInstance(ts);
    var ps :- ParsePairs(us, |inst.boys|);
    var found :- Scan(inst, ps);
    Ok(!found)
  }

  /** The two loops over a parsed instance and matching: whether a blocking pair turns up. */
  function Scan(inst: Instance, ps: seq<Pair>): (r: Result<bool, Error>)
    requires WellShaped(inst)
    ensures r.Ok? ==> (r.value <==> !Stable(inst, ps))
    ensures (AllNamesKnown(inst); AllComplete(inst, ps)) ==> r.Ok?
  {
    AllNamesKnown(inst);
    ScanBoys(BoyPref(inst), GirlPref(inst), Bg(ps), Gb(ps), inst.boys, inst.girls)
  }

  /** The check on a parsed instance and matching. */
  lemma VerifyParsed(ts: seq<string>, us: seq<string>, inst: Instance, ps: seq<Pair>)
    requires ParseInstance(ts) == Ok(inst) && ParsePairs(us, |inst.boys|) == Ok(ps)
    ensures var r := VerifyTokens(ts, us);
            && (r == Ok(true) <==> r.Ok? && Stable(inst, ps))
            && (r == Ok(false) <==> r.Ok? && !Stable(inst, ps))
            && (AllNamesKnown(inst); AllComplete(inst, ps) ==> r.Ok?)
  {
    var scan := Scan(inst, ps);
    assert VerifyTokens(ts, us) == if scan.Err? then Err(scan.error) else Ok(!scan.value);
  }

  /**
   * The verifier on an input and an output that describe an instance and a
   * matching: it accepts exactly when no pair blocks, rejects exactly when one
   * does, and raises nothing when every lookup it makes succeeds.
   */
  lemma VerifyRendered(inst: Instance, ps: seq<Pair>)
    requires WellShaped(inst) && |ps| == |inst.boys|
    requires forall i :: 0 <= i < |RenderInstance(inst)| ==> IsWord(RenderInstance(inst)[i])
    requires forall i :: 0 <= i < |RenderPairs(ps)| ==> IsWord(RenderPairs(ps)[i])
    ensures var r := Verify(Unwords(RenderInstance(inst)), Unwords(RenderPairs(ps)));
            && (r == Ok(true) <==> r.Ok? && Stable(inst, ps))
            && (r == Ok(false) <==> r.Ok? && !Stable(inst, ps))
            && (AllNamesKnown(inst); AllComplete(inst, ps) ==> r.Ok?)
  {
    TokensUnwords(RenderInstance(inst));
    TokensUnwords(RenderPairs(ps));
    ParseRenderedInstance(inst);
    ParseRenderedPairs(ps);
    VerifyParsed(RenderInstance(inst), RenderPairs(ps), inst, ps);
  }

  /** A first token of zero or below reads an empty instance, and any output is accepted. */
  lemma NonPositiveCountAcceptsAnything(ts: seq<string>, us: seq<string>)
    requires |ts| > 0 && ParseInt(ts[0]).Some? && ParseInt(ts[0]).value <= 0
    ensures VerifyTokens(ts, us) == Ok(true)
  {
    var empty := Instance([], [], [], []);
    assert ParseInstance(ts) == Ok(empty);
    assert ParsePairs(us, 0) == Ok([]);
  }
}

=== FILE: strings.dfy ===
/**
 * The few pieces of Python's `str` behaviour the harness and the problem
 * specifications rely on: `strip()`, `split()` with and without a separator,
 * `str(n)` for a non-negative integer and `int(token)`.
 */
module Strings {
  import opened Results

  /**
   * Python's `str.isspace` for one code point: the characters `strip()` and
   * `split()` (without arguments) treat as whitespace.
   */
  predicate IsSpace(c: char) {
    var x := c as int;
    x == 0x20 || 0x09 <= x <= 0x0D || 0x1C <= x <= 0x1F || x == 0x85 || x == 0xA0
    || x == 0x1680 || 0x2000 <= x <= 0x200A || x == 0x2028 || x == 0x2029
    || x == 0x202F || x == 0x205F || x == 0x3000
  }

  predicate IsDigit(c: char) {
    '0' <= c <= '9'
  }

  predicate AllDigits(s: string) {
    forall i :: 0 <= i < |s| ==> IsDigit(s[i])
  }

  predicate AllSpace(s: string) {
    forall i :: 0 <= i < |s| ==> IsSpace(s[i])
  }

  // ---------------------------------------------------------------------------
  // strip()

  /** Number of whitespace characters at the front of `s`. */
  function LeadingSpaces(s: string): (n: nat)
    ensures n <= |s|
    ensures forall i :: 0 <= i < n ==> IsSpace(s[i])
    ensures n < |s| ==> !IsSpace(s[n])
  {
    if |s| > 0 && IsSpace(s[0]) then 1 + LeadingSpaces(s[1..]) else 0
  }

  /** Number of whitespace characters at the back of `s`. */
  function TrailingSpaces(s: string): (n: nat)
    ensures n <= |s|
    ensures forall i :: |s| - n <= i < |s| ==> IsSpace(s[i])
    ensures n < |s| ==> !IsSpace(s[|s| - n - 1])
  {
    if |s| > 0 && IsSpace(s[|s| - 1]) then 1 + TrailingSpaces(s[..|s| - 1]) else 0
  }

  /**
   * Python's `s.strip()`: the middle of `s` once whitespace is removed at
   * both ends.
   */
  function Strip(s: string): (r: string)
    ensures LeadingSpaces(s) + |r| <= |s|
    ensures r == s[LeadingSpaces(s)..LeadingSpaces(s) + |r|]
    ensures r != [] ==> !IsSpace(r[0]) && !IsSpace(r[|r| - 1])
    ensures forall i :: 0 <= i < LeadingSpaces(s) ==> IsSpace(s[i])
    ensures forall i :: LeadingSpaces(s) + |r| <= i < |s| ==> IsSpace(s[i])
  {
    var t := s[LeadingSpaces(s)..];
    t[..|t| - TrailingSpaces(t)]
  }

  /**
   * `Strip(s)` is the one slice of `s` that drops only whitespace and does
   * not begin or end with whitespace.
   */
  lemma StripIsTheUniqueTrim(s: string, i: nat, j: nat)
    requires i <= j <= |s|
    requires AllSpace(s[..i]) && AllSpace(s[j..])
    requires i < j ==> !IsSpace(s[i]) && !IsSpace(s[j - 1])
    ensures Strip(s) == s[i..j]
  {
    var l := LeadingSpaces(s);
    var r := Strip(s);
    var e := l + |r|;
    assert forall k :: 0 <= k < i ==> IsSpace(s[k]) by {
      forall k | 0 <= k < i ensures IsSpace(s[k]) { assert s[..i][k] == s[k]; }
    }
    assert forall k :: j <= k < |s| ==> IsSpace(s[k]) by {
      forall k | j <= k < |s| ensures IsSpace(s[k]) { assert s[j..][k - j] == s[k]; }
    }
    if i == j {
      assert AllSpace(s);
      assert l == |s|;
    } else {
      assert l == i;
      assert e >= j;
      assert |r| > 0;
      assert s[e - 1] == r[|r| - 1];
      assert e == j;
    }
  }

  /** Stripping twice is the same as stripping once. */
  lemma StripIdempotent(s: string)
    ensures Strip(Strip(s)) == Strip(s)
  {
    var r := Strip(s);
    assert r[..0] == [];
    assert r[|r|..] == [];
    StripIsTheUniqueTrim(r, 0, |r|);
  }

  lemma StripConsSpace(c: char, s: string)
    requires IsSpace(c)
    ensures Strip([c] + s) == Strip(s)
  {
    var w := [c] + s;
    var l := LeadingSpaces(s);
    var r := Strip(s);
    var i := l + 1;
    var j := i + |r|;
    assert w[i..j] == s[l..l + |r|];
    assert AllSpace(w[..i]) by {
      forall k | 0 <= k < i ensures IsSpace(w[..i][k]) {
        if k > 0 { assert w[k] == s[k - 1]; }
      }
    }
    assert AllSpace(w[j..]) by {
      forall k | 0 <= k < |w| - j ensures IsSpace(w[j..][k]) { assert w[j + k] == s[j + k - 1]; }
    }
    if i < j {
      assert w[i] == r[0];
      assert w[j - 1] == r[|r| - 1];
    }
    StripIsTheUniqueTrim(w, i, j);
  }

  lemma StripSnocSpace(s: string, c: char)
    requires IsSpace(c)
    ensures Strip(s + [c]) == Strip(s)
  {
    var w := s + [c];
    var l := LeadingSpaces(s);
    var r := Strip(s);
    var j := l + |r|;
    assert w[l..j] == s[l..j];
    assert AllSpace(w[..l]) by {
      forall k | 0 <= k < l ensures IsSpace(w[..l][k]) { assert w[k] == s[k]; }
    }
    assert AllSpace(w[j..]) by {
      forall k | 0 <= k < |w| - j ensures IsSpace(w[j..][k]) {
        if j + k < |s| { assert w[j + k] == s[j + k]; }
      }
    }
    if l < j {
      assert w[l] == r[0];
      assert w[j - 1] == r[|r| - 1];
    }
    StripIsTheUniqueTrim(w, l, j);
  }

  lemma {:induction false} StripIgnoresPrefix(pre: string, s: string)
    requires AllSpace(pre)
    ensures Strip(pre + s) == Strip(s)
    decreases |pre|
  {
    if |pre| > 0 {
      var rest := pre[1..] + s;
      StripIgnoresPrefix(pre[1..], s);
      assert pre + s == [pre[0]] + rest;
      StripConsSpace(pre[0], rest);
    } else {
      assert pre + s == s;
    }
  }

  lemma {:induction false} StripIgnoresSuffix(s: string, post: string)
    requires AllSpace(post)
    ensures Strip(s + post) == Strip(s)
    decreases |post|
  {
    if |post| > 0 {
      var n := |post| - 1;
      var rest := s + post[..n];
      StripIgnoresSuffix(s, post[..n]);
      assert s + post == rest + [post[n]];
      StripSnocSpace(rest, post[n]);
    } else {
      assert s + post == s;
    }
  }

  /** A trailing newline, as `print` leaves it, is what `Strip` removes from a trimmed line. */
  lemma StripNewline(s: string)
    requires s != [] && !IsSpace(s[0]) && !IsSpace(s[|s| - 1])
    ensures Strip(s + "\n") == s
  {
    var w := s + "\n";
    assert w[|s|..] == "\n";
    assert w[..0] == [];
    assert w[0..|s|] == s;
    StripIsTheUniqueTrim(w, 0, |s|);
  }

  /** Whitespace added at either end is invisible to `Strip`. */
  lemma StripIgnoresPadding(pre: string, s: string, post: string)
    requires AllSpace(pre) && AllSpace(post)
    ensures Strip(pre + s + post) == Strip(s)
  {
    var body := s + post;
    assert pre + s + post == pre + body;
    StripIgnoresPrefix(pre, body);
    StripIgnoresSuffix(s, post);
  }

  // ---------------------------------------------------------------------------
  // str(n) and int(token)

  function DigitChar(d: nat): (c: char)
    requires d < 10
    ensures IsDigit(c)
  {
    (48 + d) as char
  }

  function DigitValue(c: char): (d: nat)
    requires IsDigit(c)
    ensures d < 10 && DigitChar(d) == c
  {
    c as int - 48
  }

  /** Python's `str(n)` for `n >= 0`: decimal digits, no leading zero. */
  function NatToString(n: nat): (r: string)
    ensures |r| >= 1 && AllDigits(r)
    ensures r[0] == '0' ==> r == "0"
    decreases n
  {
    if n < 10 then [DigitChar(n)] else NatToString(n / 10) + [DigitChar(n % 10)]
  }

  /** The value of a string of decimal digits (leading zeros allowed). */
  function DigitsValue(s: string): nat
    requires AllDigits(s)
  {
    if |s| == 0 then 0 else 10 * DigitsValue(s[..|s| - 1]) + DigitValue(s[|s| - 1])
  }

  /** `int(s)` for a token without a sign: a non-empty run of ASCII digits. */
  function ParseNat(s: string): (r: Option<nat>)
    ensures r.Some? <==> |s| > 0 && AllDigits(s)
  {
    if |s| > 0 && AllDigits(s) then Some(DigitsValue(s)) else None
  }

  /** Python's `int(token)`: an optional `+` or `-` followed by decimal digits. */
  function ParseInt(s: string): (r: Option<int>)
    ensures r.Some? <==> |s| > 0 && (AllDigits(s) || ((s[0] == '-' || s[0] == '+') && |s| > 1 && AllDigits(s[1..])))
    ensures r.Some? && s[0] == '-' ==> r.value <= 0
    ensures r.Some? && s[0] != '-' ==> r.value >= 0
    ensures r.Some? ==>
      var digits := if s[0] == '-' || s[0] == '+' then s[1..] else s;
      ParseNat(digits).Some? && (if r.value < 0 then -r.value else r.value) == ParseNat(digits).value
  {
    if |s| > 0 && (s[0] == '-' || s[0] == '+') then
      match ParseNat(s[1..])
      case Some(v) =>
        var x: int := if s[0] == '-' then -(v as int) else v;
        Some(x)
      case None => None
    else
      match ParseNat(s)
      case Some(v) => Some(v)
      case None => None
  }

  /** Reading back `str(n)` gives `n`. */
  lemma {:induction false} ParseNatToString(n: nat)
    ensures ParseNat(NatToString(n)) == Some(n)
    ensures ParseInt(NatToString(n)) == Some(n)
    decreases n
  {
    var s := NatToString(n);
    if n >= 10 {
      ParseNatToString(n / 10);
      assert s[..|s| - 1] == NatToString(n / 10);
      assert DigitsValue(s) == 10 * (n / 10) + n % 10;
    }
  }

  /** Reading back `str(n)`, `-` then `str(n)`, or `+` then `str(n)` gives the number written. */
  lemma ParseIntToString(n: nat)
    ensures ParseInt(NatToString(n)) == Some(n)
    ensures ParseInt("-" + NatToString(n)) == Some(-(n as int))
    ensures ParseInt("+" + NatToString(n)) == Some(n)
  {
    ParseNatToString(n);
    assert ("-" + NatToString(n))[1..] == NatToString(n);
    assert ("+" + NatToString(n))[1..] == NatToString(n);
  }

  /** A decimal string is one token, and holds no separator other than a digit. */
  lemma NatToStringIsWord(n: nat, sep: char)
    requires !IsDigit(sep)
    ensures IsWord(NatToString(n))
    ensures sep !in NatToString(n)
  {
    var s := NatToString(n);
    assert forall i :: 0 <= i < |s| ==> IsDigit(s[i]);
  }

  /** Distinct numbers have distinct decimal strings. */
  lemma NatToStringInjective(a: nat, b: nat)
    requires NatToString(a) == NatToString(b)
    ensures a == b
  {
    ParseNatToString(a);
    ParseNatToString(b);
  }

  // ---------------------------------------------------------------------------
  // split(sep) and sep.join(parts)

  /** Python's `s.split(sep)` for a one-character separator. */
  function Split(s: string, sep: char): (parts: seq<string>)
    ensures |parts| >= 1
    decreases |s|
  {
    if |s| == 0 then [""]
    else if s[0] == sep then [""] + Split(s[1..], sep)
    else
      var rest := Split(s[1..], sep);
      [[s[0]] + rest[0]] + rest[1..]
  }

  /** Python's `sep.join(parts)` for a one-character separator. */
  function Join(parts: seq<string>, sep: char): string
  {
    if |parts| == 0 then ""
    else if |parts| == 1 then parts[0]
    else parts[0] + [sep] + Join(parts[1..], sep)
  }

  lemma {:induction false} SplitPrefix(p: string, t: string, sep: char)
    requires sep !in p
    ensures Split(p + t, sep) == [p + Split(t, sep)[0]] + Split(t, sep)[1..]
    decreases |p|
  {
    if |p| > 0 {
      SplitPrefix(p[1..], t, sep);
      var u := Split(t, sep);
      assert (p + t)[0] == p[0] && p[0] != sep;
      assert (p + t)[1..] == p[1..] + t;
      var rest := Split(p[1..] + t, sep);
      assert rest[0] == p[1..] + u[0] && rest[1..] == u[1..];
      assert [p[0]] + (p[1..] + u[0]) == p + u[0];
    } else {
      assert p + t == t;
      assert p + Split(t, sep)[0] == Split(t, sep)[0];
      assert Split(t, sep) == [Split(t, sep)[0]] + Split(t, sep)[1..];
    }
  }

  /** Splitting a join gives the parts back, when no part holds the separator. */
  lemma {:induction false} SplitJoin(parts: seq<string>, sep: char)
    requires |parts| >= 1
    requires forall i :: 0 <= i < |parts| ==> sep !in parts[i]
    ensures Split(Join(parts, sep), sep) == parts
    decreases |parts|
  {
    if |parts| == 1 {
      SplitPrefix(parts[0], "", sep);
      assert parts[0] + "" == parts[0];
    } else {
      var rest := Join(parts[1..], sep);
      SplitJoin(parts[1..], sep);
      assert parts[0] + [sep] + rest == parts[0] + ([sep] + rest);
      SplitPrefix(parts[0], [sep] + rest, sep);
      assert ([sep] + rest)[1..] == rest;
      assert parts[0] + "" == parts[0];
      assert [parts[0]] + parts[1..] == parts;
    }
  }

  // ---------------------------------------------------------------------------
  // split() without arguments: whitespace-separated tokens

  /** A token as `split()` produces it: non-empty, no whitespace. */
  predicate IsWord(w: string) {
    |w| > 0 && forall i :: 0 <= i < |w| ==> !IsSpace(w[i])
  }

  /** Length of the longest whitespace-free prefix of `s`. */
  function WordLength(s: string): (n: nat)
    ensures n <= |s|
    ensures forall i :: 0 <= i < n ==> !IsSpace(s[i])
    ensures n < |s| ==> IsSpace(s[n])
  {
    if |s| > 0 && !IsSpace(s[0]) then 1 + WordLength(s[1..]) else 0
  }

  /** Python's `s.split()`: the maximal whitespace-free runs of `s`, in order. */
  function Tokens(s: string): (ts: seq<string>)
    ensures forall i :: 0 <= i < |ts| ==> IsWord(ts[i])
    decreases |s|
  {
    if |s| == 0 then []
    else if IsSpace(s[0]) then Tokens(s[1..])
    else
      var n := WordLength(s);
      [s[..n]] + Tokens(s[n..])
  }

  /** Tokens written out separated by single spaces. */
  function Unwords(ts: seq<string>): string
  {
    Join(ts, ' ')
  }

  lemma {:induction false} WordLengthOfWord(w: string, t: string)
    requires IsWord(w)
    requires |t| == 0 || IsSpace(t[0])
    ensures WordLength(w + t) == |w|
    decreases |w|
  {
    if |w| > 1 {
      WordLengthOfWord(w[1..], t);
      assert (w + t)[1..] == w[1..] + t;
    } else {
      assert (w + t)[1..] == t;
    }
  }

  lemma TokensOfWordThen(w: string, t: string)
    requires IsWord(w)
    requires |t| == 0 || IsSpace(t[0])
    ensures Tokens(w + t) == [w] + Tokens(t)
  {
    WordLengthOfWord(w, t);
    assert (w + t)[..|w|] == w;
    assert (w + t)[|w|..] == t;
  }

  /** Reading tokens back from `Unwords` gives the same tokens. */
  lemma {:induction false} TokensUnwords(ts: seq<string>)
    requires forall i :: 0 <= i < |ts| ==> IsWord(ts[i])
    ensures Tokens(Unwords(ts)) == ts
    decreases |ts|
  {
    if |ts| == 1 {
      TokensOfWordThen(ts[0], "");
      assert ts[0] + "" == ts[0];
    } else if |ts| > 1 {
      var rest := Unwords(ts[1..]);
      TokensUnwords(ts[1..]);
      assert Unwords(ts) == ts[0] + ([' '] + rest);
      TokensOfWordThen(ts[0], [' '] + rest);
      assert ([' '] + rest)[1..] == rest;
      assert [ts[0]] + ts[1..] == ts;
    }
  }
}

=== FILE: testsets.dfy ===
/**
 * The three test-set iterators of test.py as one datatype of iterator
 * states: `DefaultTestSet` (a pointer over a directory listing),
 * `RandomTestSetBase` (a counter around a `generate` call) and
 * `PseudoLabelTestset` (a decorator that relabels another set's cases with a
 * reference executable's output). `Next` is `__next__`, `Length` is `__len__`.
 */
module TestSets {
  import opened Results
  import opened Strings
  import opened Harness

  /**
   * One `*.in` file of the problem directory: its stem, its text, and the
   * text of the `.out` file with the same stem, when there is one.
   */
  datatype InFile = InFile(stem: string, input: string, output: Option<string>)

  /** One run of the reference executable: its output, or the timeout. */
  datatype RefRun = RefOutput(stdout: string) | RefTimeout

  datatype TestSet =
    | Default(files: seq<InFile>, pointer: nat, length: nat)
    | Random(name: string, generate: nat -> TestCase, cnt: nat, num: int)
    | Pseudo(src: TestSet, reference: string -> RefRun, cnt: nat, num: int)

  /** What one `__next__` call does: stop, yield a case, or raise a fatal error. */
  datatype Pull = Stop | Yield(tc: TestCase, rest: TestSet) | Fail(error: Fatal)

  /** The states the constructors and `Next` can reach. */
  predicate Valid(t: TestSet) {
    match t
    case Default(files, pointer, length) => length == |files| && pointer <= length
    case Random(_, _, cnt, num) => num >= 0 ==> cnt <= num
    case Pseudo(src, _, cnt, num) => cnt <= num && Valid(src)
  }

  /** Sets that stop: a random set with a negative count never does. */
  predicate Finite(t: TestSet) {
    !t.Random? || t.num >= 0
  }

  /** `testset.name`. */
  function Name(t: TestSet): string {
    match t
    case Default(_, _, _) => "Default"
    case Random(name, _, _, _) => name
    case Pseudo(src, _, _, _) => Name(src)
  }

  /**
   * `__len__`: the count the set was built with. It is never below what the
   * set still has to yield, and it is negative only for a random set built
   * with a negative count, which never stops.
   */
  function Length(t: TestSet): (r: int)
    ensures Valid(t) ==> Remaining(t) <= r
    ensures Valid(t) && Finite(t) ==> r >= 0
    ensures Valid(t) && r < 0 ==> t.Random? && !Finite(t)
  {
    match t
    case Default(_, _, length) => length
    case Random(_, _, _, num) => num
    case Pseudo(_, _, _, num) => num
  }

  /** How many more cases the set's own counter admits. */
  function Remaining(t: TestSet): int {
    match t
    case Default(_, pointer, length) => length - pointer
    case Random(_, _, cnt, num) => num - cnt
    case Pseudo(_, _, cnt, num) => num - cnt
  }

  /** A set yields at most `len()` cases. */
  lemma CasesWithinLength(t: TestSet)
    requires Valid(t) && Finite(t)
    ensures |Drain(t).cases| <= Length(t)
  {
  }

  lemma FiniteRemaining(t: TestSet)
    requires Valid(t) && Finite(t)
    ensures Remaining(t) >= 0
  {
  }

  /** `DefaultTestSet(labID, problemID)` over the given listing of `*.in` files. */
  function NewDefault(files: seq<InFile>): (t: TestSet)
    ensures Valid(t) && Finite(t)
    ensures Name(t) == "Default" && Length(t) == |files| && Remaining(t) == |files|
  {
    Default(files, 0, |files|)
  }

  /** `RandomTestSetBase(labID, problemID, case_num)`, with the default name. */
  function NewRandom(generate: nat -> TestCase, caseNum: int): (t: TestSet)
    ensures Valid(t) && (Finite(t) <==> caseNum >= 0)
    ensures Name(t) == "Random" && Length(t) == caseNum && Remaining(t) == caseNum
  {
    Random("Random", generate, 0, caseNum)
  }

  /**
   * `PseudoLabelTestset(src_set, …)`: its length is `len(src_set)`, which
   * raises `ValueError` when `__len__` is negative.
   */
  function NewPseudo(src: TestSet, reference: string -> RefRun): (r: Result<TestSet, Fatal>)
    requires Valid(src)
    ensures r.Err? <==> Length(src) < 0
    ensures r.Err? ==> r.error == NegativeLength
    ensures r.Ok? ==> Valid(r.value) && Finite(r.value) && r.value.Pseudo? && r.value.src == src
    ensures r.Ok? ==> Name(r.value) == Name(src) && Length(r.value) == Length(src) && Remaining(r.value) == Length(src)
  {
    if Length(src) < 0 then Err(NegativeLength) else Ok(Pseudo(src, reference, 0, Length(src)))
  }

  /** The case a `.in` file yields once its `.out` file has been read. */
  function CaseOf(f: InFile): TestCase
    requires f.output.Some?
  {
    TestCase(f.stem, f.input, Exact(f.output.value))
  }

  /** The case `PseudoLabelTestset` yields: same name and input, the stripped peer output as expectation. */
  function Label(c: TestCase, peerStdout: string): TestCase {
    TestCase(c.name, c.input, Exact(Strip(peerStdout)))
  }

  /** `__next__`. */
  function Next(t: TestSet): (r: Pull)
    requires Valid(t)
    ensures r.Yield? ==> Valid(r.rest) && Finite(r.rest) == Finite(t)
    ensures r.Yield? ==> Name(r.rest) == Name(t) && Length(r.rest) == Length(t)
    ensures r.Yield? ==> Remaining(r.rest) == Remaining(t) - 1
    ensures Remaining(t) == 0 ==> r.Stop?
    ensures !t.Pseudo? ==> (r.Stop? <==> Remaining(t) == 0)
    ensures t.Random? ==> !r.Fail?
    ensures t.Pseudo? && r.Yield? ==> r.tc.verifier.Exact?
  {
    match t
    case Default(files, pointer, length) =>
      if pointer == length then Stop
      else
        var f := files[pointer];
        if f.output.None? then Fail(MissingOutput(f.stem))
        else Yield(CaseOf(f), Default(files, pointer + 1, length))
    case Random(name, generate, cnt, num) =>
      if cnt == num then Stop
      else Yield(generate(cnt + 1), Random(name, generate, cnt + 1, num))
    case Pseudo(src, reference, cnt, num) =>
      if cnt == num then Stop
      else
        match Next(src)
        case Stop => Stop
        case Fail(e) => Fail(e)
        case Yield(c, src') =>
          match reference(c.input)
          case RefTimeout => Fail(ReferenceTimeout(c.name))
          case RefOutput(out) => Yield(Label(c, out), Pseudo(src', reference, cnt + 1, num))
  }

  /** What iterating a set to the end produces: its cases, and the fatal error that ended it, if any. */
  datatype Drained = Drained(cases: seq<TestCase>, error: Option<Fatal>)

  /** The cases a `for` loop over the set sees, in order. */
  function Drain(t: TestSet): (d: Drained)
    requires Valid(t) && Finite(t)
    ensures |d.cases| <= Remaining(t)
    ensures !t.Pseudo? && d.error.None? ==> |d.cases| == Remaining(t)
    ensures t.Random? ==> d.error.None?
    decreases Remaining(t)
  {
    match Next(t)
    case Stop => Drained([], None)
    case Fail(e) => Drained([], Some(e))
    case Yield(c, rest) =>
      var d := Drain(rest);
      Drained([c] + d.cases, d.error)
  }

  /** A random set with a negative count never reaches `cnt == num`: `__next__` always yields. */
  lemma RandomNegativeNeverStops(name: string, g: nat -> TestCase, cnt: nat, num: int)
    requires num < 0
    ensures Next(Random(name, g, cnt, num)) == Yield(g(cnt + 1), Random(name, g, cnt + 1, num))
  {
  }

  /**
   * A random set calls `generate` once per case, with the counter already
   * incremented: exactly `num - cnt` times, seeing `cnt + 1 .. num`.
   */
  lemma {:induction false} DrainRandom(name: string, g: nat -> TestCase, cnt: nat, num: int)
    requires cnt <= num
    ensures Drain(Random(name, g, cnt, num)).error.None?
    ensures |Drain(Random(name, g, cnt, num)).cases| == num - cnt
    ensures forall i :: 0 <= i < num - cnt ==> Drain(Random(name, g, cnt, num)).cases[i] == g(cnt + i + 1)
    decreases num - cnt
  {
    if cnt < num {
      DrainRandom(name, g, cnt + 1, num);
    }
  }

  /** The names of a random set's cases, when `generate` names the case after the counter it sees. */
  lemma RandomNames(g: nat -> TestCase, num: nat, name: nat -> string)
    requires forall c: nat :: g(c).name == name(c)
    ensures |Drain(NewRandom(g, num)).cases| == num
    ensures forall i :: 0 <= i < num ==> Drain(NewRandom(g, num)).cases[i].name == name(i + 1)
  {
    DrainRandom("Random", g, 0, num);
  }

  /** The first index at or after `p` whose `.out` file is missing, or `|files|`. */
  function FirstMissing(files: seq<InFile>, p: nat): (m: nat)
    requires p <= |files|
    ensures p <= m <= |files|
    ensures forall i :: p <= i < m ==> files[i].output.Some?
    ensures m < |files| ==> files[m].output.None?
    decreases |files| - p
  {
    if p == |files| || files[p].output.None? then p else FirstMissing(files, p + 1)
  }

  /**
   * A default set yields the listed files in listing order, one case each,
   * and fails at the first file whose `.out` is missing, after the cases
   * before it have been yielded.
   */
  lemma {:induction false} DrainDefault(files: seq<InFile>, p: nat)
    requires p <= |files|
    ensures var d := Drain(Default(files, p, |files|));
            var m := FirstMissing(files, p);
            && |d.cases| == m - p
            && (forall i :: 0 <= i < m - p ==> d.cases[i] == CaseOf(files[p + i]))
            && d.error == (if m < |files| then Some(MissingOutput(files[m].stem)) else None)
    decreases |files| - p
  {
    if p < |files| && files[p].output.Some? {
      DrainDefault(files, p + 1);
    }
  }

  /** A fresh default set whose `.in` files all have `.out` files yields exactly `length` cases. */
  lemma DefaultYieldsLength(files: seq<InFile>)
    requires forall i :: 0 <= i < |files| ==> files[i].output.Some?
    ensures Drain(NewDefault(files)).error.None?
    ensures |Drain(NewDefault(files)).cases| == Length(NewDefault(files))
  {
    DrainDefault(files, 0);
  }

  /**
   * The source cases relabelled one by one, up to the first reference
   * timeout, which becomes the error.
   */
  function Relabel(cs: seq<TestCase>, reference: string -> RefRun): (r: Drained)
    ensures |r.cases| <= |cs|
    ensures forall i :: 0 <= i < |r.cases| ==>
      reference(cs[i].input).RefOutput? && r.cases[i] == Label(cs[i], reference(cs[i].input).stdout)
    ensures r.error.None? <==> |r.cases| == |cs|
    ensures r.error.Some? ==>
      reference(cs[|r.cases|].input).RefTimeout? && r.error == Some(ReferenceTimeout(cs[|r.cases|].name))
  {
    if |cs| == 0 then Drained([], None)
    else
      match reference(cs[0].input)
      case RefTimeout => Drained([], Some(ReferenceTimeout(cs[0].name)))
      case RefOutput(out) =>
        var rest := Relabel(cs[1..], reference);
        Drained([Label(cs[0], out)] + rest.cases, rest.error)
  }

  lemma RelabelCons(c: TestCase, cs: seq<TestCase>, reference: string -> RefRun, out: string)
    requires reference(c.input) == RefOutput(out)
    ensures Relabel([c] + cs, reference)
         == Drained([Label(c, out)] + Relabel(cs, reference).cases, Relabel(cs, reference).error)
  {
    assert ([c] + cs)[1..] == cs;
  }

  lemma DrainYield(t: TestSet, c: TestCase, rest: TestSet)
    requires Valid(t) && Finite(t) && Next(t) == Yield(c, rest)
    ensures Drain(t) == Drained([c] + Drain(rest).cases, Drain(rest).error)
  {
  }

  lemma DrainPseudoStep(src: TestSet, reference: string -> RefRun, cnt: nat, num: int,
                        c: TestCase, src': TestSet, out: string)
    requires Valid(Pseudo(src, reference, cnt, num)) && cnt < num
    requires Next(src) == Yield(c, src') && reference(c.input) == RefOutput(out)
    ensures var d := Drain(Pseudo(src', reference, cnt + 1, num));
            Drain(Pseudo(src, reference, cnt, num)) == Drained([Label(c, out)] + d.cases, d.error)
  {
    var t := Pseudo(src, reference, cnt, num);
    assert Next(t) == Yield(Label(c, out), Pseudo(src', reference, cnt + 1, num));
    DrainYield(t, Label(c, out), Pseudo(src', reference, cnt + 1, num));
  }

  lemma DrainPseudoTimeout(src: TestSet, reference: string -> RefRun, cnt: nat, num: int,
                           c: TestCase, src': TestSet)
    requires Valid(Pseudo(src, reference, cnt, num)) && cnt < num
    requires Next(src) == Yield(c, src') && reference(c.input) == RefTimeout
    ensures Drain(Pseudo(src, reference, cnt, num)) == Drained([], Some(ReferenceTimeout(c.name)))
  {
  }

  /**
   * Over a source that yields exactly as many cases as the pseudo-label set
   * has left, iterating the pseudo-label set is relabelling the source's
   * cases one by one until the first reference timeout.
   */
  lemma {:induction false} DrainPseudo(src: TestSet, reference: string -> RefRun, cnt: nat, num: int)
    requires Valid(Pseudo(src, reference, cnt, num)) && Finite(src)
    requires Drain(src).error.None? && |Drain(src).cases| == num - cnt
    ensures Drain(Pseudo(src, reference, cnt, num)) == Relabel(Drain(src).cases, reference)
    decreases num - cnt
  {
    if cnt < num {
      var pulled := Next(src);
      assert !pulled.Stop? && !pulled.Fail?;
      var c, src' := pulled.tc, pulled.rest;
      DrainYield(src, c, src');
      var d' := Drain(src');
      var r := reference(c.input);
      if r.RefTimeout? {
        DrainPseudoTimeout(src, reference, cnt, num, c, src');
      } else {
        DrainPseudo(src', reference, cnt + 1, num);
        DrainPseudoStep(src, reference, cnt, num, c, src', r.stdout);
        RelabelCons(c, d'.cases, reference, r.stdout);
      }
    }
  }

  lemma DrainPseudoSourceFails(src: TestSet, reference: string -> RefRun, cnt: nat, num: int, e: Fatal)
    requires Valid(Pseudo(src, reference, cnt, num)) && cnt < num
    requires Next(src) == Fail(e)
    ensures Drain(Pseudo(src, reference, cnt, num)) == Drained([], Some(e))
  {
  }

  /**
   * A source that fails before the pseudo-label set's count is reached
   * (a missing `.out` file) makes the pseudo-label set fail with the same
   * error once the cases before it are relabelled, unless a reference
   * timeout comes first.
   */
  lemma {:induction false} DrainPseudoPropagates(src: TestSet, reference: string -> RefRun, cnt: nat, num: int)
    requires Valid(Pseudo(src, reference, cnt, num)) && Finite(src)
    requires Drain(src).error.Some? && |Drain(src).cases| < num - cnt
    ensures var r := Relabel(Drain(src).cases, reference);
            Drain(Pseudo(src, reference, cnt, num)) == (if r.error.Some? then r else Drained(r.cases, Drain(src).error))
    decreases num - cnt
  {
    var pulled := Next(src);
    if pulled.Fail? {
      DrainPseudoSourceFails(src, reference, cnt, num, pulled.error);
    } else {
      assert !pulled.Stop?;
      var c, src' := pulled.tc, pulled.rest;
      DrainYield(src, c, src');
      var d' := Drain(src');
      var r := reference(c.input);
      if r.RefTimeout? {
        DrainPseudoTimeout(src, reference, cnt, num, c, src');
      } else {
        DrainPseudoPropagates(src', reference, cnt + 1, num);
        DrainPseudoStep(src, reference, cnt, num, c, src', r.stdout);
        RelabelCons(c, d'.cases, reference, r.stdout);
      }
    }
  }

  /**
   * A pseudo-label set keeps each source case's name and input, replaces its
   * expectation by the stripped peer output, and stops with the first
   * reference timeout.
   */
  lemma PseudoKeepsNamesAndInputs(src: TestSet, reference: string -> RefRun)
    requires Valid(src) && Finite(src) && Length(src) >= 0
    requires Drain(src).error.None? && |Drain(src).cases| == Length(src)
    ensures NewPseudo(src, reference).Ok?
    ensures var d := Drain(NewPseudo(src, reference).value); var cs := Drain(src).cases;
            && |d.cases| <= |cs|
            && (forall i :: 0 <= i < |d.cases| ==>
                  && d.cases[i].name == cs[i].name && d.cases[i].input == cs[i].input
                  && reference(cs[i].input).RefOutput?
                  && d.cases[i].verifier == Exact(Strip(reference(cs[i].input).stdout)))
            && (d.error.None? <==> |d.cases| == |cs|)
            && (d.error.Some? ==> d.error == Some(ReferenceTimeout(cs[|d.cases|].name)))
  {
    DrainPseudo(src, reference, 0, Length(src));
  }

  /** Every case a pseudo-label set yields carries a string verifier. */
  lemma {:induction false} PseudoCasesExact(t: TestSet)
    requires Valid(t) && Finite(t) && t.Pseudo?
    ensures forall i :: 0 <= i < |Drain(t).cases| ==> Drain(t).cases[i].verifier.Exact?
    decreases Remaining(t)
  {
    match Next(t)
    case Yield(c, rest) =>
      DrainYield(t, c, rest);
      assert rest.Pseudo?;
      PseudoCasesExact(rest);
      var cs := Drain(t).cases;
      forall i | 0 <= i < |cs| ensures cs[i].verifier.Exact? {
        if i > 0 { assert cs[i] == Drain(rest).cases[i - 1]; }
      }
    case Stop =>
    case Fail(_) =>
  }

  /**
   * Judging against a pseudo label is judging against the peer's output,
   * both stripped: stripping the label again changes nothing.
   */
  lemma PeerLabelComparesStripped(c: TestCase, peerStdout: string, run: Run, timeout: real)
    requires run.Finished?
    ensures Classify(run, Label(c, peerStdout).verifier, timeout).status == WrongAnswer
        <==> Strip(run.stdout) != Strip(peerStdout)
  {
    StripIdempotent(peerStdout);
  }

  /** The peer's printed `"7\n"` replaces the source's own expectation and is kept stripped, as `"7"`. */
  lemma PeerLabelExample(name: string, input: string)
    ensures Label(TestCase(name, input, Exact("8")), "7\n").verifier == Exact("7")
  {
    StripNewline("7");
  }
}
